=== FILE: README.md ===
# Mindlessly, modelled in Dafny

Mindlessly is a browser extension that asks for a purpose before a distracting site can be used.
This project models its core logic and proves properties of that model:

- **The background service worker** (`background.js`). It keeps a cache of extension storage. On
  each committed navigation it decides whether to inject the widget:
  - ignored navigations: embedded frames and browser-internal protocols;
  - an optional active-hours window, compared as `HH:MM` strings;
  - matching of the host name against the tracked sites.
- **The engagement gate in the widget** (`js/inject.js`):
  - it counts completed sessions;
  - it celebrates milestones from the schedule 3, 7, 15, 30, 50, 100;
  - it asks for a Net Promoter Score on the progressive schedule 2, 5, 12, 30, 70, 100, indexed by
    the number of earlier prompts;
  - `checkAndShowFeedback` gives a due milestone priority over the feedback prompt.
- **The session timer of the `Intention` widget** (`js/inject.js`): start, resume after reload,
  tick, complete, extend, reset and finish.
- **The older feedback helpers** (`js/utils/feedback.js`). They use a fixed gate: three sessions,
  then six once asked.
- **The onboarding page** (`js/onboarding.js`): the slide carousel and its progress dots, and the
  one-hour countdown kept in `localStorage`.

## Modules

| File | Module | Contents |
|---|---|---|
| `support.dfy` | `Support` | `Option`, and decimal rendering and parsing of numbers as JavaScript prints them. |
| `nps.dfy` | `Nps` | The score bands, shared by both feedback modules. |
| `engagement.dfy` | `Engagement` | Specification functions of the gate. Class `UsageStore`, whose field is the stored `usageStats` record. |
| `intention.dfy` | `IntentionTimer` | Class `Intention`, with the timer fields the widget updates in place. |
| `feedback_v1.dfy` | `LegacyFeedback` | The helpers of `js/utils/feedback.js`. |
| `background.dfy` | `Background` | Navigation filtering, the time window and site matching. Class `ServiceWorker`, which holds the storage cache. |
| `onboarding.dfy` | `Onboarding` | Class `OnboardingPage` over arrays of slide and dot classes. Class `TimerStorage`, for the two `localStorage` entries. |

Clocks, storage reads and the browser's URL parser are inputs:
- `now` (milliseconds) and the local hour and minute are parameters;
- the stored records are fields, or constructor arguments;
- a navigation carries its already parsed protocol and host name.

Each read-modify-write storage helper is a method on a class. Its `ensures` ties the new record to
a specification function of the old one. The lemmas are stated about those functions.

### Behaviour the model reproduces as written

The model keeps the following behaviours of the code as they are, and proves each of them:

- **Two attempts per skipped prompt.** Showing the feedback prompt calls `markFeedbackRequested`
  (`js/inject.js:1833`). Skipping the prompt calls it again (`js/inject.js:1538`). So one
  shown-then-skipped prompt moves the schedule forward by two entries
  (`Engagement.ShownThenSkippedCountsTwice`).
- **Uncleared interval.** `startTimer` does not clear an interval that is already running, whereas
  `startInfiniteSession` and `extendTimer` do. Each restart while ticking leaves one interval
  running (`IntentionTimer.Intention.StartTimer`, the `strayIntervals` field).
- **Expired resume counts again on every reload.** An expired timer found on reload completes at
  once. That path does not set `timerCompleted` and does not remove the stored timer. So every
  reload while the dialog is open counts the session again
  (`IntentionTimer.ExpiredTimerCountsOnEveryReload`).
- **Overnight windows never pass.** The window test compares strings:
  `from < hh_mm && to > hh_mm`. It can hold only when `from` sorts before `to`. So a window across
  midnight, such as 23:00 to 02:00, never lets the widget in, although the comment at
  `background.js:81-82` names exactly that case (`Background.WindowNeedsFromBeforeTo`,
  `Background.OvernightWindowNeverActive`, `Background.OvernightSettingBlocksInjection`).
- **Elapsed time subtracted twice.** The onboarding countdown saves the remaining time on every
  tick, but the start timestamp only once. A reload subtracts all the time since that timestamp
  from a remaining time that already had it counted off (`Onboarding.ReloadAfterTicks`).
- **Celebrations one dialog at a time.** Closing a celebration runs the gate again. Several due
  milestones are therefore celebrated one dialog at a time, in increasing order, before the
  feedback prompt can appear (`IntentionTimer.Dismissals`, `IntentionTimer.DismissalsInOrder`).

## Model

| member | source | states |
|---|---|---|
| Support.Decimal | js/inject.js:2065 | Renders a non-negative integer as its decimal digits. It has one digit exactly below 10 and two digits from 10 to 99. There is no leading zero. |
| Support.DecimalRoundTrip | js/inject.js:2065 | Parsing the rendered digits gives the number back. |
| Support.Padded | background.js:86 | Numbers below 10 get a leading `0`. The result has at least two digits, exactly two below 100, and parses back to the number. From 10 up it has no leading zero. |
| Nps.CategoryOf | js/inject.js:187-191 | `getNPSCategory`, written identically at `js/utils/feedback.js:140-144`. It is a detractor exactly at ≤ 6, passive exactly at 7–8 and a promoter exactly at ≥ 9. |
| Nps.ValidScore | js/inject.js:151 | Definition: the scores `saveNPSScore` accepts, 0 to 10 inclusive. |
| Engagement.Tracked | js/inject.js:15-42 | The session count is one more than the stored count, or 1 when nothing is stored. The last-session date is `now`. The install date is kept, or set to `now` on a fresh record. No other field changes. |
| Engagement.UsageStore.TrackSessionCompletion | js/inject.js:15-42 | Writes back and returns `Tracked` of the old record. |
| Engagement.UsageStore.constructor | js/inject.js:17 | The store holds the given `usageStats` entry, or none. |
| Engagement.FirstPending | js/inject.js:107-113 | `find` over an ascending schedule. It returns a scheduled, due entry with no smaller due entry, or None exactly when nothing is due. |
| Engagement.Pending | js/inject.js:110-112 | Definition: a milestone is due when the sessions reach it and it is not yet celebrated. |
| Engagement.MilestoneReached | js/inject.js:99-121 | The milestone returned is in the schedule, due (sessions ≥ m and not yet celebrated) and the smallest due one. It is None exactly when no milestone is due. |
| Engagement.UsageStore.CheckMilestoneReached | js/inject.js:99-121 | The loop over the schedule returns `MilestoneReached` of the stored record and its session count, and leaves storage unchanged. |
| Engagement.Celebrated | js/inject.js:123-147 | The milestone ends up listed. The old list is a prefix of the new one, and at most one entry is added. The record is unchanged if the milestone was already listed. Sessions, feedback flag and attempts are kept. Every field except the milestone list is kept. |
| Engagement.UsageStore.MarkMilestoneCelebrated | js/inject.js:123-147 | Writes back and returns `Celebrated` of the old record. |
| Engagement.CelebrateIdempotent | js/inject.js:130-137 | Marking the same milestone twice equals marking it once. |
| Engagement.CelebrateListsOnce | js/inject.js:130-137 | A milestone listed at most once is listed exactly once after marking. |
| Engagement.CelebratedStayScheduled | js/inject.js:1731 | Marking the milestone the check returned keeps the celebrated list inside the schedule. |
| Engagement.CelebratedNotReachedAgain | js/inject.js:107-113 | After the reached milestone is marked, the check returns a strictly larger milestone or none. |
| Engagement.NextFeedbackAt | js/inject.js:57-60 | The threshold is the schedule entry for the attempt count, or 100 past its end. It always lies between 2 and 100. |
| Engagement.ShouldRequest | js/inject.js:62-65 | Definition: the sessions reach the threshold for the attempt count and no score has been given. |
| Engagement.NextFeedbackAtMonotone | js/inject.js:57-60 | More attempts never lower the threshold. |
| Engagement.UsageStore.ShouldRequestFeedback | js/inject.js:44-74 | Answers yes exactly when sessions ≥ the threshold for the attempt count and no score was given. It also returns the session count and the record judged, and changes nothing. |
| Engagement.Requested | js/inject.js:76-96 | The flag is set, attempts go up by one and the request time is `now`. Every other field is kept, among them sessions, the given flag and milestones. |
| Engagement.UsageStore.MarkFeedbackRequested | js/inject.js:76-96 | Writes back and returns `Requested` of the old record. |
| Engagement.ShownThenSkippedCountsTwice | js/inject.js:1536-1540 | A prompt that is shown and then skipped raises the attempt count by two. |
| Engagement.FirstPromptAtTwoThenFive | js/inject.js:57-65 | At two sessions with no attempts, feedback is due. After one prompt it is not due, and the next threshold is 5. |
| Engagement.ScoreSaved | js/inject.js:160-164 | Score, category and submission time are stored, and the given flag is set, so the gate never asks. Every other field is kept, among them sessions, attempts and milestones. |
| Engagement.Run | js/inject.js:15-164 | Definition: the record after a sequence of calls of the storage helpers, a rejected score changing nothing. |
| Engagement.UsageStore.SaveNPSScore | js/inject.js:149-185 | Saves exactly the scores 0–10 and writes `ScoreSaved`. An out-of-range score is rejected and storage is left untouched. The remote submission's outcome does not matter. |
| Engagement.GivenFeedbackIsFinal | js/inject.js:62-65 | Once a score is given, no sequence of tracked sessions, requests, celebrations or score saves makes the gate ask again. |
| Engagement.NextPrompt | js/inject.js:1813-1840 | Celebrates exactly when a milestone is due, and then that milestone. Asks for feedback exactly when no milestone is due and the gate says yes. |
| Engagement.Prompted | js/inject.js:1813-1840 | Definition: the record after the check has marked what it showed, the milestone celebrated or the request made, otherwise unchanged. |
| Engagement.SessionEnded | js/inject.js:2077-2095 | Completing a session then running the check leaves the count one higher and the given flag unchanged. |
| Engagement.MilestoneSuppressesFeedback | js/inject.js:1818-1824 | In a session that celebrates, feedback attempts and the requested flag are untouched. |
| Engagement.MilestoneExamples | js/inject.js:107-113 | 3 sessions reach milestone 3. With 3 celebrated, 5 sessions reach none and 7 reach 7. |
| Engagement.CelebratingShrinksPending | js/inject.js:1813-1840 | Marking the reached milestone takes exactly that milestone off the due set; every other due milestone stays due. |
| Engagement.UsageStore.CheckAndShowFeedback | js/inject.js:1813-1840 | The prompt is `NextPrompt` of the old record. The record is marked for what was shown, and unchanged when nothing was shown. |
| IntentionTimer.RemainingSeconds | js/inject.js:2053-2054 | The least whole number of seconds covering the time to the deadline. It is zero exactly at or after the deadline. |
| IntentionTimer.RemainingNonIncreasing | js/inject.js:2053-2054 | A later tick never shows more remaining time. |
| IntentionTimer.FullDurationAtStart | js/inject.js:1929-1931 | A timer for `n` minutes shows exactly `n*60` seconds at its start. |
| IntentionTimer.TimerText | js/inject.js:2063-2065 | From 60 seconds up, the text is whole minutes followed by `m`; below that, seconds followed by `s`. The digits parse back to that value and have no leading zero. |
| IntentionTimer.Intention.constructor | js/inject.js:1210-1212 | No timer, no interval, completion not shown, no selection. The saved timer and intention are those of session storage. |
| IntentionTimer.Intention.ChooseTimerButton | js/inject.js:1458 | The clicked button becomes the selected one. |
| IntentionTimer.Intention.OnStartClicked | js/inject.js:1478-1484 | "No timer" starts an infinite session: saved, not ticking, completion cleared. A positive duration starts a timer ending `n` minutes from now: saved, ticking, completion cleared, and a still-running interval counted as stray. Anything else changes nothing. The selection, the saved intention, the dialog and the usage record are kept. |
| IntentionTimer.Intention.StartTimer | js/inject.js:1928-1956 | Timer record from `now` with deadline `now + n*60000`, saved to session storage and ticking, completion flag cleared. A running interval is left running: the stray count goes up by one. |
| IntentionTimer.Intention.StartInfiniteSession | js/inject.js:1958-1982 | Clears the interval. Stores and saves an infinite timer that keeps the selected button. |
| IntentionTimer.Intention.RestoreSelectedButton | js/inject.js:1990-1997 | The saved text becomes the selection exactly when it is present and non-empty and some button has that text. Otherwise the selection is unchanged. |
| IntentionTimer.Intention.ResumeTimer | js/inject.js:1984-2028 | Infinite: adopted, not ticking. Expired: completes the session once, leaving the stored record and `timerCompleted` as they were. Otherwise: adopted and ticking. |
| IntentionTimer.Intention.UpdateTimerDisplay | js/inject.js:2046-2075 | With no timer or an infinite one, nothing happens. Before the deadline, or once completed, only the text from the remaining seconds is shown. The first tick at or after the deadline completes the session. |
| IntentionTimer.Intention.TimerComplete | js/inject.js:2077-2095 | Stops ticking, counts the session, runs the gate and shows the dialog. |
| IntentionTimer.Intention.ExtendTimer | js/inject.js:2097-2139 | The new deadline is `n` minutes from now, keeping the saved button text. The record is saved, the dialog hidden, the timer ticking, and the text shows `n` minutes. |
| IntentionTimer.Intention.HideCelebrationDialog | js/inject.js:1734-1745 | Closing a celebration runs `checkAndShowFeedback` again. |
| IntentionTimer.Intention.ResetAndEditIntention | js/inject.js:2141-2174 | Timer, selection and stored timer are cleared. The stored intention is kept. |
| IntentionTimer.Intention.FinishSession | js/inject.js:2176-2210 | Counts the session, runs the gate, and clears the timer, the selection and both stored entries. |
| IntentionTimer.ExpiryCountsOnce | js/inject.js:2056-2060 | Two ticks past the deadline count the session exactly once and stop the ticking. |
| IntentionTimer.ExpiredTimerCountsOnEveryReload | js/inject.js:2004-2007 | Two loads that find the same expired timer count two sessions, and the timer stays stored. |
| IntentionTimer.Dismissals | js/inject.js:1734-1745 | Dismissing celebration dialogs in turn celebrates nothing exactly when no milestone is due; otherwise the first dialog celebrates the first milestone due. |
| IntentionTimer.DismissalsInOrder | js/inject.js:1734-1745 | Every milestone celebrated by repeated dismissals is on the schedule, and each is strictly later than the one before. |
| LegacyFeedback.Tracked | js/utils/feedback.js:10-40 | One more session, counted from a fresh record when nothing is stored. The last-session date is `now`. The install date is kept, or `now` on a fresh record. No other field changes. |
| LegacyFeedback.ShouldRequestThreshold | js/utils/feedback.js:59-64 | The gate asks exactly when no score was given and sessions ≥ 3, or ≥ 6 once a request was made. |
| LegacyFeedback.ShouldRequest | js/utils/feedback.js:60-64 | Definition: at least 3 sessions, no score given, and at least 6 once a request was made. |
| LegacyFeedback.Requested | js/utils/feedback.js:79-98 | Sets the flag and the request time. Every other field is kept, among them sessions, given flag and score. |
| LegacyFeedback.ScoreSaved | js/utils/feedback.js:117-121 | Score, category and time are stored, and the given flag is set, so the gate never asks. Every other field is kept, among them sessions and the request flag. |
| LegacyFeedback.Run | js/utils/feedback.js:10-121 | Definition: the record after a sequence of calls of the storage helpers, a rejected score changing nothing. |
| LegacyFeedback.AsksEverySessionFromSix | js/utils/feedback.js:59-64 | Once asked and at six or more sessions, every later prompt-and-session cycle is asked again until a score is given. |
| LegacyFeedback.GivenFeedbackIsFinal | js/utils/feedback.js:60-64 | After a score, no sequence of later session counts, requests and score saves makes the gate ask. |
| LegacyFeedback.FeedbackStore.TrackSessionCompletion | js/utils/feedback.js:10-40 | Writes back and returns `Tracked` of the old record. |
| LegacyFeedback.FeedbackStore.constructor | js/utils/feedback.js:12 | The store holds the given `usageStats` entry, or none. |
| LegacyFeedback.FeedbackStore.ShouldRequestFeedback | js/utils/feedback.js:46-73 | Yes exactly at the 3-then-6 threshold with no score given. It also returns the count and the record judged. |
| LegacyFeedback.FeedbackStore.MarkFeedbackRequested | js/utils/feedback.js:79-98 | Writes back and returns `Requested` of the old record. |
| LegacyFeedback.FeedbackStore.SaveNPSScore | js/utils/feedback.js:106-133 | Saves exactly the scores 0–10. An out-of-range score leaves storage untouched. |
| LegacyFeedback.FeedbackStore.GetUsageStats | js/utils/feedback.js:150-169 | Returns the stored record. With nothing stored, it returns the default with every field pinned: no sessions, both flags false, no score, no category, no session date, no request date, no submission date, and the install date `now`. |
| Background.LexLessTransitive | background.js:88 | JavaScript string order is transitive. |
| Background.HhMm | background.js:83-86 | The built `hh_mm` is a well-formed clock string denoting `hour*60 + minute`. |
| Background.LexLess | background.js:88 | Definition: JavaScript `<` on strings, the first differing character decides and a proper prefix sorts first. |
| Background.WithinActiveHours | background.js:88 | Definition: `from < hh_mm && to > hh_mm` on strings. |
| Background.LexLessStep | background.js:88 | String order decided by the first characters or by the rest. |
| Background.LexOrderIsClockOrder | background.js:88 | On well-formed `HH:MM` strings, string order is exactly time order. |
| Background.ActiveHoursByClock | background.js:80-91 | With well-formed bounds, the window admits exactly the minutes strictly between `from` and `to`. |
| Background.WindowNeedsFromBeforeTo | background.js:88 | A window can pass only if `from` sorts before `to`. |
| Background.OvernightWindowNeverActive | background.js:81-88 | The window 23:00 to 02:00 passes at no time of day. |
| Background.OvernightSettingBlocksInjection | background.js:80-91 | With the window on and `to` not after `from`, nothing is ever injected. |
| Background.StripWww | background.js:101-103 | A leading `www.` is removed, and other strings are unchanged. |
| Background.SiteMatches | background.js:96-105 | Definition: the site equals the host, or the host is the site without `www.`, or ends with a dot and that name. |
| Background.MatchesAnySite | background.js:96-106 | True exactly when some tracked site matches the host. |
| Background.SubdomainStillMatches | background.js:96-106 | If a host matches a site, every subdomain of that host matches too. |
| Background.TrackedSiteExamples | background.js:96-106 | `www.youtube.com` covers `youtube.com` and `m.youtube.com`, not `notyoutube.com`. |
| Background.EarlyExit | background.js:64-75 | The navigation goes on exactly when it has a URL that parses, is not an embedded frame, and does not use a restricted protocol. |
| Background.InjectionVerdict | background.js:77-106 | Injects exactly when `time` is set, an active window contains the current time, `sites` is set and some site matches. Outside the window, the result is "outside active hours". |
| Background.DefaultSitesStripped | background.js:20-26 | The install defaults store exactly the five default sites. Without `www.` they are youtube.com, instagram.com, twitter.com, x.com and facebook.com. |
| Background.InstallDefaultsIgnoreTheClock | background.js:27 | With the install defaults the window is off, and the verdict depends on the host alone. |
| Background.DefaultSitesTracked | background.js:20-26 | The defaults cover `youtube.com` and `mobile.twitter.com`. |
| Background.LastCharacterDiffers | background.js:96-106 | A host whose last character differs from the site's never matches it, neither exactly, nor without `www.`, nor as a subdomain. |
| Background.DefaultSitesOnly | background.js:20-26 | The defaults do not cover `example.org`. |
| Background.ServiceWorker.constructor | background.js:6 | The cache starts unset. |
| Background.ServiceWorker.OnInstalled | background.js:32-34 | After install, the cache is the default storage. |
| Background.ServiceWorker.StartupRead | background.js:9-11 | The startup read fills the cache. |
| Background.ServiceWorker.OnStorageChanged | background.js:48-53 | With the cache set: changed keys take their new values (`Undefined` for removed ones), other keys keep theirs, and the key set grows by the changed keys. With the cache unset: nothing happens. |
| Background.ServiceWorker.HandleNavigation | background.js:64-155 | Early exits leave the cache alone. Otherwise an unset cache is filled from storage, and the verdict is `InjectionVerdict` on the cache. |
| Onboarding.DotRowShape | js/onboarding.js:19-26 | In range: completed dots, one active dot, then plain dots. Past the end: all completed. Negative: all plain. |
| Onboarding.DotFor | js/onboarding.js:19-26 | Definition: a dot before the index is completed, the one at the index active, later ones plain. |
| Onboarding.DotRow | js/onboarding.js:19-26 | Definition: the classes of all `n` dots after `showSlide(index)`. |
| Onboarding.ClockText | js/onboarding.js:60-63 | `MM:SS` with a colon third from the end. The minutes times 60 plus the seconds parse back to the input. Seconds are below 60, and the text is five characters below 100 minutes. From 600 seconds up the minutes field has no leading zero. |
| Onboarding.DisplayText | js/onboarding.js:55-63 | "Expired" exactly when the time is ≤ 0. Otherwise the MM:SS text `ClockText` of the time. |
| Onboarding.Restored | js/onboarding.js:77-79 | Never negative. Not above the saved time when the clock moved forward. A positive result is the saved time less exactly the whole seconds elapsed. Zero exactly when the elapsed milliseconds reach the saved seconds times 1000. |
| Onboarding.LoadedRemaining | js/onboarding.js:72-84 | Definition: the restored time when both saved values are present, otherwise the page's current time. |
| Onboarding.OnboardingPage.constructor | js/onboarding.js:6-7 | Index 0 with only the first slide active, countdown at one hour. |
| Onboarding.OnboardingPage.ShowSlide | js/onboarding.js:10-34 | Exactly the slide `index` is active. The dots are `DotRow` for `index`, and the index is stored without a range check. |
| Onboarding.OnboardingPage.NextSlide | js/onboarding.js:36-40 | Advances unless on the last of 7 slides, staying in range. The countdown and its display are kept. |
| Onboarding.OnboardingPage.PrevSlide | js/onboarding.js:42-46 | Goes back unless on the first slide, staying in range. The countdown and its display are kept. |
| Onboarding.OnboardingPage.UpdateTimer | js/onboarding.js:51-69 | Shows the time, decrements it and saves it. At zero or below, it shows "Expired" and changes nothing. |
| Onboarding.OnboardingPage.RunInterval | js/onboarding.js:88 | The interval firing `count` times counts the time down by `count`, stopping at zero, and saves it. The timestamp and the slide are kept. |
| Onboarding.OnboardingPage.OnLoaded | js/onboarding.js:72-87 | Restores from the saved time and timestamp when both exist. Otherwise it saves the current time and `now`. Then the first tick. |
| Onboarding.WalkThrough | js/onboarding.js:36-40 | `k` presses of "next" stop at the last slide, with earlier dots completed, one active and the rest plain. |
| Onboarding.RestoredAfterWholeSeconds | js/onboarding.js:77-79 | A load exactly `k` whole seconds after the saved timestamp takes `k` seconds off the saved time, never below zero. |
| Onboarding.ReloadRemaining | js/onboarding.js:72-79 | A load `ticks` seconds after the first finds the saved time `ticks` lower and deducts `ticks` again, and shows the countdown text of the result. |
| Onboarding.FirstVisit | js/onboarding.js:72-88 | A first visit that stays `ticks` seconds leaves the remaining time `ticks` below 3599 in storage, and the first-load timestamp. |
| Onboarding.ReloadAfterTicks | js/onboarding.js:65-79 | After `k` ticks, the remaining time just after a reload is `k + 1` seconds lower than the remaining time just before it, so the elapsed time is subtracted twice. The reloaded page shows the MM:SS text of the restored time. |

## Left out

- Rendering and the DOM: shadow-DOM markup, the progress circle, confetti, dialogs' CSS classes, drag and position saving, the focus traps and keyboard handling, and `footer.js`. These are presentation only.
- The delays of `setTimeout` in `checkAndShowFeedback`, `hideCelebrationDialog` and `showCelebrationDialog` are collapsed. The milestone or request is marked within the call.
- `getAnonymousUserId` and `sendNPSToGoogleForms` are network and random-identifier I/O. The remote send's outcome is a parameter that changes nothing.
- Every `chrome.runtime.lastError` rejection path is left out. Storage reads and writes are assumed to succeed.
- Cross-tab races are left out. Storage is read and written by one caller at a time.
- `chrome.scripting.executeScript` and `insertCSS` are left out. An `Inject` verdict stands for them. Their failures are only logged.
- The changelog page on update, and opening the onboarding tab on install, are left out.
- URL parsing is left out. A navigation carries its parsed protocol and host name, or none when `new URL` would throw.
- `Engagement.Tracked`: a stored record lacking `sessionsCompleted` would count as `NaN` in JavaScript. The model reads the missing count as 0.
- `Background.InjectionVerdict`: a `time` or `sites` value of the wrong type is folded into the four `Setting` shapes. A missing setting is modelled as an ignored navigation, where JavaScript throws.
- The blur handler that saves a newly typed intention (`js/inject.js:1262-1285`) is left out. Its timer side is covered by `ResetAndEditIntention`.
- The widget's `connectedCallback` and `showTimerSelection` restore logic are left out. `ResumeTimer` takes the parsed stored timer as an argument.
- The `timerDisplay`-missing early return of the onboarding `updateTimer` is left out. The page always has the element.
- A `NaN` slide index from a dot without `data-slide` is left out.
- `IntentionTimer.Intention.StartTimer` and `IntentionTimer.Intention.ExtendTimer` require a positive number of minutes. Their only callers guarantee it: the start-button guard and `extendTimer(5)`.

=== FILE: background.dfy ===
/**
 * The background service worker (background.js): it keeps a cache of extension storage, and on
 * every committed navigation decides whether to inject the widget. Navigations without a URL,
 * embedded frames and browser-internal protocols are ignored; then an optional active-hours window
 * is checked by comparing `HH:MM` strings, and the host name is matched against the tracked sites.
 *
 * `new URL(...)` is not modelled: a navigation carries its parsed protocol and host name, or None
 * when the constructor would throw. The local hour and minute are parameters.
 */
module Background {
  import opened Support

  /** A value in extension storage, as far as the worker reads it. */
  datatype Setting =
    | SiteList(sites: seq<string>)                          // `sites`: the values of `{ '0': ..., '1': ... }`
    | ActiveHours(active: bool, from: string, to: string)   // `time`
    | OtherSetting                                          // any other stored value, such as `user`
    | Undefined                                             // the `newValue` of a removed key

  type Storage = map<string, Setting>

  datatype ParsedUrl = ParsedUrl(protocol: string, hostname: string)

  /** The `webNavigation.onCommitted` details the worker reads. */
  datatype Navigation = Navigation(url: string, transitionType: string, parsed: Option<ParsedUrl>)

  datatype Reason =
    | NoUrl | UnparsableUrl | Subframe | RestrictedProtocol
    | SettingsMissing | OutsideActiveHours | UntrackedSite

  datatype Verdict = Inject | Ignored(reason: Reason)

  const RestrictedProtocols: seq<string> :=
    ["chrome:", "chrome-extension:", "edge:", "about:", "devtools:", "view-source:"]

  // ---------------------------------------------------------------------------------------------
  // String order and the active-hours window

  /** JavaScript's `<` on strings: lexicographic, a proper prefix coming first. */
  predicate LexLess(a: string, b: string)
    decreases |a|
  {
    if b == [] then false
    else if a == [] then true
    else if a[0] != b[0] then a[0] < b[0]
    else LexLess(a[1..], b[1..])
  }

  lemma {:induction false} LexLessTransitive(a: string, b: string, c: string)
    requires LexLess(a, b) && LexLess(b, c)
    ensures LexLess(a, c)
    decreases |a|
  {
    if a != [] && a[0] == b[0] && b[0] == c[0] {
      LexLessTransitive(a[1..], b[1..], c[1..]);
    }
  }

  /** The shape `DD:DD`. */
  predicate ClockShape(s: string) {
    |s| == 5 && IsDigit(s[0]) && IsDigit(s[1]) && s[2] == ':' && IsDigit(s[3]) && IsDigit(s[4])
  }

  function ClockHours(s: string): nat
    requires ClockShape(s)
  {
    DigitValue(s[0]) * 10 + DigitValue(s[1])
  }

  function ClockMins(s: string): nat
    requires ClockShape(s)
  {
    DigitValue(s[3]) * 10 + DigitValue(s[4])
  }

  /** A zero-padded 24-hour `HH:MM` time of day. */
  predicate IsClock(s: string) {
    ClockShape(s) && ClockHours(s) < 24 && ClockMins(s) < 60
  }

  /** Minutes since midnight. */
  function ClockMinutes(s: string): nat
    requires ClockShape(s)
  {
    ClockHours(s) * 60 + ClockMins(s)
  }

  /** The `hh_mm` string built from the local hour and minute. */
  function HhMm(hour: nat, minute: nat): (s: string)
    requires hour < 24 && minute < 60
    ensures IsClock(s) && ClockMinutes(s) == hour * 60 + minute
  {
    var h, m := Padded(hour), Padded(minute);
    ParseTwoDigits(h);
    ParseTwoDigits(m);
    h + ":" + m
  }

  lemma LexLessStep(a: string, b: string)
    requires a != [] && b != []
    ensures LexLess(a, b) <==> a[0] < b[0] || (a[0] == b[0] && LexLess(a[1..], b[1..]))
  {
  }

  /** For well-formed `HH:MM` strings the string order is the order of the times they denote. */
  lemma LexOrderIsClockOrder(a: string, b: string)
    requires IsClock(a) && IsClock(b)
    ensures LexLess(a, b) <==> ClockMinutes(a) < ClockMinutes(b)
  {
    LexLessStep(a, b);
    LexLessStep(a[1..], b[1..]);
    LexLessStep(a[2..], b[2..]);
    LexLessStep(a[3..], b[3..]);
    LexLessStep(a[4..], b[4..]);
    assert a[1..][1..] == a[2..] && b[1..][1..] == b[2..];
    assert a[2..][1..] == a[3..] && b[2..][1..] == b[3..];
    assert a[3..][1..] == a[4..] && b[3..][1..] == b[4..];
    assert a[4..][1..] == [] && b[4..][1..] == [];
    assert LexLess(a, b) <==>
      a[0] < b[0] || (a[0] == b[0] && (a[1] < b[1] || (a[1] == b[1] &&
        (a[3] < b[3] || (a[3] == b[3] && a[4] < b[4])))));
  }

  /** `time.from < hh_mm && time.to > hh_mm`: both ends excluded. */
  predicate WithinActiveHours(from: string, to: string, hhmm: string) {
    LexLess(from, hhmm) && LexLess(hhmm, to)
  }

  /** With well-formed bounds the window holds exactly the minutes strictly between them. */
  lemma ActiveHoursByClock(from: string, to: string, hour: nat, minute: nat)
    requires IsClock(from) && IsClock(to) && hour < 24 && minute < 60
    ensures WithinActiveHours(from, to, HhMm(hour, minute))
            <==> ClockMinutes(from) < hour * 60 + minute < ClockMinutes(to)
  {
    LexOrderIsClockOrder(from, HhMm(hour, minute));
    LexOrderIsClockOrder(HhMm(hour, minute), to);
  }

  /**
   * A window passes only when `from` sorts before `to`, whatever the strings. So a window across
   * midnight such as 23:00 to 02:00, which the comment at background.js:81-82 promises, never passes.
   */
  lemma WindowNeedsFromBeforeTo(from: string, to: string, hhmm: string)
    requires WithinActiveHours(from, to, hhmm)
    ensures LexLess(from, to)
  {
    LexLessTransitive(from, hhmm, to);
  }

  lemma OvernightWindowNeverActive(hour: nat, minute: nat)
    requires hour < 24 && minute < 60
    ensures !WithinActiveHours("23:00", "02:00", HhMm(hour, minute))
  {
    if WithinActiveHours("23:00", "02:00", HhMm(hour, minute)) {
      WindowNeedsFromBeforeTo("23:00", "02:00", HhMm(hour, minute));
      assert false;
    }
  }

  // ---------------------------------------------------------------------------------------------
  // Tracked sites

  /** `site.replace(/^www\./, '')`. */
  function StripWww(site: string): (r: string)
    ensures |site| >= 4 && site[..4] == "www." ==> site == "www." + r
    ensures !(|site| >= 4 && site[..4] == "www.") ==> r == site
  {
    if |site| >= 4 && site[..4] == "www." then site[4..] else site
  }

  predicate EndsWith(s: string, suffix: string) {
    |suffix| <= |s| && s[|s| - |suffix|..] == suffix
  }

  /**
   * The callback of `.some(...)`: the exact site, the site without a leading `www.`, or any
   * subdomain of the latter. (Lines 101 and 104 test the same suffix.)
   */
  predicate SiteMatches(site: string, hostname: string) {
    var bare := StripWww(site);
    site == hostname || hostname == bare || EndsWith(hostname, "." + bare)
  }

  /** `Object.values(sites).some(...)`. */
  function MatchesAnySite(sites: seq<string>, hostname: string): (r: bool)
    ensures r <==> exists i :: 0 <= i < |sites| && SiteMatches(sites[i], hostname)
  {
    if sites == [] then false
    else SiteMatches(sites[0], hostname) || MatchesAnySite(sites[1..], hostname)
  }

  /** A subdomain of a matching host matches too. */
  lemma SubdomainStillMatches(site: string, hostname: string, prefix: string)
    requires SiteMatches(site, hostname)
    ensures SiteMatches(site, prefix + "." + hostname)
  {
    var bare := StripWww(site);
    var sub := prefix + "." + hostname;
    var suffix := "." + bare;
    if hostname == bare {
      assert sub[|sub| - |suffix|..] == suffix;
    } else {
      if hostname == site && site != bare {
        // a host equal to a `www.` site ends with the dot and the bare site
        assert hostname == "www" + suffix;
        assert hostname[|hostname| - |suffix|..] == suffix;
      }
      assert EndsWith(hostname, suffix);
      assert sub[|sub| - |suffix|..] == hostname[|hostname| - |suffix|..];
    }
  }

  /** The tracked site `www.youtube.com` covers `youtube.com` and `m.youtube.com` but not `notyoutube.com`. */
  lemma TrackedSiteExamples()
    ensures SiteMatches("www.youtube.com", "youtube.com")
    ensures SiteMatches("www.youtube.com", "m.youtube.com")
    ensures !SiteMatches("www.youtube.com", "notyoutube.com")
  {
    var site := "www.youtube.com";
    assert site[..4] == "www.";
    assert StripWww(site) == "youtube.com";
    var m := "m.youtube.com";
    assert m[|m| - 12..] == ".youtube.com";
    var n := "notyoutube.com";
    assert n[|n| - 12..][0] == 't';
  }

  // ---------------------------------------------------------------------------------------------
  // Navigation handling

  /** The early returns of `handleNavigation`, in order; None when the navigation goes on. */
  function EarlyExit(nav: Navigation): (r: Option<Reason>)
    ensures r.None? <==> nav.url != "" && nav.parsed.Some? && nav.transitionType != "auto_subframe"
                         && nav.parsed.value.protocol !in RestrictedProtocols
  {
    if nav.url == "" then Some(NoUrl)
    else if nav.parsed.None? then Some(UnparsableUrl)
    else if nav.transitionType == "auto_subframe" then Some(Subframe)
    else if nav.parsed.value.protocol in RestrictedProtocols then Some(RestrictedProtocol)
    else None
  }

  /**
   * `handleInjection` up to the decision to inject: a missing `time` setting throws; an active
   * window must contain the current time; a missing `sites` setting throws.
   */
  function InjectionVerdict(cache: Storage, hostname: string, hour: nat, minute: nat): (v: Verdict)
    requires hour < 24 && minute < 60
    ensures v == Inject <==>
              && "time" in cache && !cache["time"].Undefined?
              && (cache["time"].ActiveHours? && cache["time"].active ==>
                    WithinActiveHours(cache["time"].from, cache["time"].to, HhMm(hour, minute)))
              && "sites" in cache && cache["sites"].SiteList?
              && MatchesAnySite(cache["sites"].sites, hostname)
    ensures v == Ignored(OutsideActiveHours) ==>
              && "time" in cache && cache["time"].ActiveHours? && cache["time"].active
              && !WithinActiveHours(cache["time"].from, cache["time"].to, HhMm(hour, minute))
  {
    if "time" !in cache || cache["time"].Undefined? then Ignored(SettingsMissing)
    else if cache["time"].ActiveHours? && cache["time"].active
            && !WithinActiveHours(cache["time"].from, cache["time"].to, HhMm(hour, minute)) then Ignored(OutsideActiveHours)
    else if "sites" !in cache || !cache["sites"].SiteList? then Ignored(SettingsMissing)
    else if MatchesAnySite(cache["sites"].sites, hostname) then Inject
    else Ignored(UntrackedSite)
  }

  /** With the window on and a well-formed overnight window, nothing is ever injected. */
  lemma OvernightSettingBlocksInjection(cache: Storage, hostname: string, hour: nat, minute: nat)
    requires hour < 24 && minute < 60
    requires "time" in cache && cache["time"].ActiveHours? && cache["time"].active
    requires IsClock(cache["time"].from) && IsClock(cache["time"].to)
    requires ClockMinutes(cache["time"].to) <= ClockMinutes(cache["time"].from)
    ensures InjectionVerdict(cache, hostname, hour, minute) != Inject
  {
    ActiveHoursByClock(cache["time"].from, cache["time"].to, hour, minute);
  }

  /** What a fresh install writes to storage: five tracked sites and the window switched off. */
  const DefaultSites: seq<string> := ["www.youtube.com", "www.instagram.com", "twitter.com", "x.com", "www.facebook.com"]

  const InstallDefaults: Storage := map[
    "sites" := SiteList(DefaultSites),
    "time" := ActiveHours(false, "09:00", "17:00"),
    "user" := OtherSetting]

  lemma DefaultSitesStripped()
    ensures InstallDefaults["sites"] == SiteList(DefaultSites)
    ensures var sites := DefaultSites;
            |sites| == 5 && StripWww(sites[0]) == "youtube.com" && StripWww(sites[1]) == "instagram.com"
            && StripWww(sites[2]) == "twitter.com" && StripWww(sites[3]) == "x.com" && StripWww(sites[4]) == "facebook.com"
  {
    var sites := DefaultSites;
    assert sites[2][..4][0] == 't';
    assert sites[3][..4][0] == 'x';
  }

  /** With the install defaults the window is off, so the verdict depends on the host name alone. */
  lemma InstallDefaultsIgnoreTheClock(hostname: string, hour: nat, minute: nat)
    requires hour < 24 && minute < 60
    ensures InjectionVerdict(InstallDefaults, hostname, hour, minute)
            == if MatchesAnySite(DefaultSites, hostname) then Inject else Ignored(UntrackedSite)
  {
  }

  /** The default tracked sites cover their bare domains and subdomains ... */
  lemma DefaultSitesTracked()
    ensures MatchesAnySite(DefaultSites, "youtube.com")
    ensures MatchesAnySite(DefaultSites, "mobile.twitter.com")
  {
    DefaultSitesStripped();
    var sites := DefaultSites;
    assert SiteMatches(sites[0], "youtube.com");
    var host := "mobile.twitter.com";
    assert host[|host| - 12..] == ".twitter.com";
    assert SiteMatches(sites[2], host);
  }

  /** A host name that ends in a different character from the site never matches it. */
  lemma LastCharacterDiffers(site: string, hostname: string)
    requires site != [] && hostname != []
    requires hostname[|hostname| - 1] != site[|site| - 1]
    ensures !SiteMatches(site, hostname)
  {
    var bare := StripWww(site);
    var dotted := "." + bare;
    assert dotted[|dotted| - 1] == site[|site| - 1];
    if bare != [] {
      assert bare[|bare| - 1] == site[|site| - 1];
    }
  }

  /** ... and nothing else, such as `example.org`. */
  lemma DefaultSitesOnly()
    ensures !MatchesAnySite(DefaultSites, "example.org")
  {
    var sites := DefaultSites;
    forall i | 0 <= i < |sites|
      ensures !SiteMatches(sites[i], "example.org")
    {
      // every default site ends in 'm', the host in 'g'
      assert sites[i][|sites[i]| - 1] == 'm';
      LastCharacterDiffers(sites[i], "example.org");
    }
  }

  /** The worker's module state: `STORAGE_CACHE`, None until storage has been read once. */
  class ServiceWorker {
    var cache: Option<Storage>

    constructor ()
      ensures cache == None
    {
      cache := None;
    }

    /** The install handler: the defaults are written and become the cache. */
    method OnInstalled()
      modifies this
      ensures cache == Some(InstallDefaults)
    {
      cache := Some(InstallDefaults);
    }

    /** The startup read of all of storage. */
    method StartupRead(storage: Storage)
      modifies this
      ensures cache == Some(storage)
    {
      cache := Some(storage);
    }

    /** `storage.onChanged`: copy each changed key's new value; do nothing before the cache exists. */
    method OnStorageChanged(changes: map<string, Setting>)
      modifies this
      ensures old(cache).None? ==> cache == None
      ensures old(cache).Some? ==> cache.Some? && cache.value.Keys == old(cache).value.Keys + changes.Keys
      ensures old(cache).Some? ==> forall k :: k in changes ==> cache.value[k] == changes[k]
      ensures old(cache).Some? ==> forall k :: k in old(cache).value && k !in changes ==> cache.value[k] == old(cache).value[k]
    {
      if cache.None? {
        return;
      }
      var pending := changes.Keys;
      while pending != {}
        invariant pending <= changes.Keys && cache.Some?
        invariant cache.value.Keys == old(cache).value.Keys + (changes.Keys - pending)
        invariant forall k :: k in changes && k !in pending ==> cache.value[k] == changes[k]
        invariant forall k :: k in old(cache).value && k !in changes ==> cache.value[k] == old(cache).value[k]
        invariant forall k :: k in old(cache).value && k in pending ==> cache.value[k] == old(cache).value[k]
        decreases pending
      {
        var key :| key in pending;
        cache := Some(cache.value[key := changes[key]]);
        pending := pending - {key};
      }
    }

    /**
     * `handleNavigation`. After the early exits, a worker whose cache is not yet filled reads
     * `storage` into it first; then `handleInjection` decides.
     */
    method HandleNavigation(nav: Navigation, storage: Storage, hour: nat, minute: nat) returns (verdict: Verdict)
      requires hour < 24 && minute < 60
      modifies this
      ensures EarlyExit(nav).Some? ==> verdict == Ignored(EarlyExit(nav).value) && cache == old(cache)
      ensures EarlyExit(nav).None? ==>
                && cache == (if old(cache).Some? then old(cache) else Some(storage))
                && verdict == InjectionVerdict(cache.value, nav.parsed.value.hostname, hour, minute)
    {
      if nav.url == "" {
        return Ignored(NoUrl);
      }
      if nav.parsed.None? {
        return Ignored(UnparsableUrl);
      }
      var url := nav.parsed.value;
      if nav.transitionType == "auto_subframe" {
        return Ignored(Subframe);
      }
      if url.protocol in RestrictedProtocols {
        return Ignored(RestrictedProtocol);
      }
      if cache.None? {
        cache := Some(storage);
      }
      verdict := InjectionVerdict(cache.value, url.hostname, hour, minute);
    }
  }
}

=== FILE: engagement.dfy ===
/**
 * The engagement gate that js/inject.js runs after every session: it counts completed sessions,
 * celebrates milestones from a fixed schedule, and decides when to ask for a Net Promoter Score
 * using a progressive schedule indexed by the number of earlier prompts.
 *
 * The `usageStats` record in extension storage is a field of `UsageStore`; each helper is a
 * read-modify-write of that field, specified by a function of the old record. Storage failures
 * (`chrome.runtime.lastError`) and the asynchronous plumbing are not modelled.
 */
module Engagement {
  import opened Support
  import opened Nps

  /** The milestone schedule of `checkMilestoneReached`, in array order. */
  const Milestones: seq<nat> := [3, 7, 15, 30, 50, 100]

  /** The progressive feedback schedule of `shouldRequestFeedback`. */
  const FeedbackSchedule: seq<nat> := [2, 5, 12, 30, 70, 100]

  /**
   * The stored `usageStats` record. A field JavaScript leaves undefined is modelled by the value the
   * code reads it as: 0 for counts, false for flags, [] for the milestone list, None for the rest.
   */
  datatype UsageStats = UsageStats(
    sessionsCompleted: nat,
    feedbackRequested: bool,
    feedbackGiven: bool,
    feedbackAttempts: nat,
    celebratedMilestones: seq<int>,
    npsScore: Option<int>,
    npsCategory: Option<Category>,
    installDate: Option<int>,
    lastSessionDate: Option<int>,
    lastFeedbackRequest: Option<int>,
    npsSubmissionDate: Option<int>)

  /** A record with nothing set: the `{}` several helpers start from when nothing is stored. */
  const Blank: UsageStats := UsageStats(0, false, false, 0, [], None, None, None, None, None, None)

  /** The record `trackSessionCompletion` starts from when nothing is stored. */
  function FreshStats(now: int): UsageStats {
    Blank.(installDate := Some(now))
  }

  /** What the read-only checks see: the stored record, or their default when there is none. */
  function Effective(stored: Option<UsageStats>): UsageStats {
    if stored.Some? then stored.value else Blank
  }

  /** The fields that decide milestones and feedback prompts agree, apart from the session count. */
  predicate SameGateState(a: UsageStats, b: UsageStats) {
    && a.feedbackRequested == b.feedbackRequested
    && a.feedbackGiven == b.feedbackGiven
    && a.feedbackAttempts == b.feedbackAttempts
    && a.celebratedMilestones == b.celebratedMilestones
    && a.npsScore == b.npsScore
    && a.npsCategory == b.npsCategory
  }

  // ---------------------------------------------------------------------------------------------
  // Session counting

  /** `trackSessionCompletion`: the record written back after one more completed session. */
  function Tracked(stored: Option<UsageStats>, now: int): (r: UsageStats)
    ensures r.sessionsCompleted == Effective(stored).sessionsCompleted + 1
    ensures r.lastSessionDate == Some(now)
    ensures SameGateState(r, Effective(stored))
    ensures r.installDate == if stored.Some? then stored.value.installDate else Some(now)
    ensures r == (if stored.Some? then stored.value else FreshStats(now))
                   .(sessionsCompleted := r.sessionsCompleted, lastSessionDate := r.lastSessionDate)
  {
    var s := if stored.Some? then stored.value else FreshStats(now);
    s.(sessionsCompleted := s.sessionsCompleted + 1, lastSessionDate := Some(now))
  }

  // ---------------------------------------------------------------------------------------------
  // Milestones

  /** Milestone `m` is due: enough sessions, and not celebrated before. */
  predicate Pending(m: int, sessions: nat, celebrated: seq<int>) {
    sessions >= m && m !in celebrated
  }

  predicate Ascending(s: seq<nat>) {
    forall i, j :: 0 <= i < j < |s| ==> s[i] < s[j]
  }

  /** `milestones.find(...)` over an ascending schedule: the smallest pending entry, if any. */
  function FirstPending(schedule: seq<nat>, sessions: nat, celebrated: seq<int>): (r: Option<nat>)
    requires Ascending(schedule)
    ensures r.Some? ==> r.value in schedule && Pending(r.value, sessions, celebrated)
    ensures r.Some? ==> forall m :: m in schedule && m < r.value ==> !Pending(m, sessions, celebrated)
    ensures r.None? ==> forall m :: m in schedule ==> !Pending(m, sessions, celebrated)
  {
    if schedule == [] then None
    else if Pending(schedule[0], sessions, celebrated) then Some(schedule[0])
    else FirstPending(schedule[1..], sessions, celebrated)
  }

  /** `checkMilestoneReached`: the milestone to celebrate for a stored record, if any. */
  function MilestoneReached(stored: Option<UsageStats>): (r: Option<nat>)
    ensures r.Some? ==> r.value in Milestones
    ensures r.Some? ==> Pending(r.value, Effective(stored).sessionsCompleted, Effective(stored).celebratedMilestones)
    ensures r.Some? ==> forall m :: m in Milestones && m < r.value ==>
                          !Pending(m, Effective(stored).sessionsCompleted, Effective(stored).celebratedMilestones)
    ensures r.None? <==> forall m :: m in Milestones ==>
                          !Pending(m, Effective(stored).sessionsCompleted, Effective(stored).celebratedMilestones)
  {
    var s := Effective(stored);
    FirstPending(Milestones, s.sessionsCompleted, s.celebratedMilestones)
  }

  /** `markMilestoneCelebrated(m)`: append `m` unless it is already listed. */
  function Celebrated(stored: Option<UsageStats>, m: int): (r: UsageStats)
    ensures m in r.celebratedMilestones
    ensures |r.celebratedMilestones| <= |Effective(stored).celebratedMilestones| + 1
    ensures Effective(stored).celebratedMilestones <= r.celebratedMilestones
    ensures m in Effective(stored).celebratedMilestones ==> r == Effective(stored)
    ensures r.sessionsCompleted == Effective(stored).sessionsCompleted
    ensures r.feedbackGiven == Effective(stored).feedbackGiven
    ensures r.feedbackAttempts == Effective(stored).feedbackAttempts
    ensures r == Effective(stored).(celebratedMilestones := r.celebratedMilestones)
  {
    var s := Effective(stored);
    if m in s.celebratedMilestones then s
    else s.(celebratedMilestones := s.celebratedMilestones + [m])
  }

  /** Celebrating the same milestone twice changes nothing the second time. */
  lemma CelebrateIdempotent(stored: Option<UsageStats>, m: int)
    ensures Celebrated(Some(Celebrated(stored, m)), m) == Celebrated(stored, m)
  {
  }

  /** A milestone listed at most once before is listed exactly once afterwards. */
  lemma CelebrateListsOnce(stored: Option<UsageStats>, m: int)
    requires multiset(Effective(stored).celebratedMilestones)[m] <= 1
    ensures multiset(Celebrated(stored, m).celebratedMilestones)[m] == 1
  {
    var before := Effective(stored).celebratedMilestones;
    if m !in before {
      assert Celebrated(stored, m).celebratedMilestones == before + [m];
      assert multiset(before + [m]) == multiset(before) + multiset{m};
    }
  }

  /** Marking the milestone the check returned keeps the list inside the schedule. */
  lemma CelebratedStayScheduled(stored: Option<UsageStats>)
    requires forall x :: x in Effective(stored).celebratedMilestones ==> x in Milestones
    requires MilestoneReached(stored).Some?
    ensures forall x :: x in Celebrated(stored, MilestoneReached(stored).value).celebratedMilestones ==> x in Milestones
  {
  }

  /**
   * Once the reached milestone is marked, the check never returns it again: with the same session
   * count it returns a strictly larger milestone or none.
   */
  lemma {:induction false} CelebratedNotReachedAgain(stored: Option<UsageStats>)
    requires MilestoneReached(stored).Some?
    ensures var m := MilestoneReached(stored).value;
            var next := MilestoneReached(Some(Celebrated(stored, m)));
            next.None? || next.value > m
  {
    var m := MilestoneReached(stored).value;
    var after := Celebrated(stored, m);
    var next := MilestoneReached(Some(after));
    if next.Some? && next.value <= m {
      var n := next.value;
      assert n != m;
      // n is due after marking m, so it was due before as well, and it is smaller than m
      assert Pending(n, Effective(stored).sessionsCompleted, Effective(stored).celebratedMilestones);
      assert false;
    }
  }

  // ---------------------------------------------------------------------------------------------
  // Feedback prompts

  /** `feedbackSchedule[feedbackAttempts] || 100`: the session count the next prompt waits for. */
  function NextFeedbackAt(attempts: nat): (t: nat)
    ensures 2 <= t <= 100
    ensures attempts >= |FeedbackSchedule| ==> t == 100
    ensures attempts < |FeedbackSchedule| ==> t == FeedbackSchedule[attempts]
  {
    if attempts < |FeedbackSchedule| then FeedbackSchedule[attempts] else 100
  }

  /** Each prompt shown makes the next one wait at least as long. */
  lemma NextFeedbackAtMonotone(a: nat, b: nat)
    requires a <= b
    ensures NextFeedbackAt(a) <= NextFeedbackAt(b)
  {
    assert Ascending(FeedbackSchedule);
  }

  /** `shouldRequestFeedback`'s `shouldRequest`. */
  predicate ShouldRequest(s: UsageStats) {
    s.sessionsCompleted >= NextFeedbackAt(s.feedbackAttempts) && !s.feedbackGiven
  }

  /** `markFeedbackRequested`: flag the request and count one more attempt. */
  function Requested(stored: Option<UsageStats>, now: int): (r: UsageStats)
    ensures r.feedbackRequested
    ensures r.feedbackAttempts == Effective(stored).feedbackAttempts + 1
    ensures r.lastFeedbackRequest == Some(now)
    ensures r.sessionsCompleted == Effective(stored).sessionsCompleted
    ensures r.feedbackGiven == Effective(stored).feedbackGiven
    ensures r.celebratedMilestones == Effective(stored).celebratedMilestones
    ensures r == Effective(stored).(feedbackRequested := r.feedbackRequested, feedbackAttempts := r.feedbackAttempts,
                                    lastFeedbackRequest := r.lastFeedbackRequest)
  {
    var s := Effective(stored);
    s.(feedbackRequested := true, feedbackAttempts := s.feedbackAttempts + 1, lastFeedbackRequest := Some(now))
  }

  /**
   * The prompt is shown with one `markFeedbackRequested` call (js/inject.js:1833) and skipping it
   * makes another (js/inject.js:1538): one shown-then-skipped prompt advances the schedule by two.
   */
  lemma ShownThenSkippedCountsTwice(stored: Option<UsageStats>, shownAt: int, skippedAt: int)
    ensures Requested(Some(Requested(stored, shownAt)), skippedAt).feedbackAttempts
            == Effective(stored).feedbackAttempts + 2
  {
  }

  /** The worked example: two sessions, no attempt yet: eligible; after one prompt the bar is 5. */
  lemma FirstPromptAtTwoThenFive(now: int)
    ensures ShouldRequest(Blank.(sessionsCompleted := 2))
    ensures !ShouldRequest(Requested(Some(Blank.(sessionsCompleted := 2)), now))
    ensures NextFeedbackAt(Requested(Some(Blank.(sessionsCompleted := 2)), now).feedbackAttempts) == 5
  {
  }

  // ---------------------------------------------------------------------------------------------
  // NPS submission

  /** `saveNPSScore` for an accepted score: the record written back. */
  function ScoreSaved(stored: Option<UsageStats>, score: int, category: Category, now: int): (r: UsageStats)
    ensures r.feedbackGiven && !ShouldRequest(r)
    ensures r.npsScore == Some(score) && r.npsCategory == Some(category)
    ensures r.npsSubmissionDate == Some(now)
    ensures r.sessionsCompleted == Effective(stored).sessionsCompleted
    ensures r.feedbackAttempts == Effective(stored).feedbackAttempts
    ensures r.celebratedMilestones == Effective(stored).celebratedMilestones
    ensures r == Effective(stored).(npsScore := r.npsScore, npsCategory := r.npsCategory, feedbackGiven := r.feedbackGiven,
                                    npsSubmissionDate := r.npsSubmissionDate)
  {
    var s := Effective(stored);
    s.(npsScore := Some(score), npsCategory := Some(category), feedbackGiven := true, npsSubmissionDate := Some(now))
  }

  /** One call of a gate helper, for stating what holds after any sequence of them. */
  datatype GateCall =
    | TrackCall(at: int)
    | RequestCall(at: int)
    | CelebrateCall(milestone: int)
    | SaveScoreCall(score: int, category: Category, at: int)

  /** The stored record after running the calls in order; a rejected score changes nothing. */
  function Run(stored: Option<UsageStats>, calls: seq<GateCall>): UsageStats
    decreases |calls|
  {
    if calls == [] then Effective(stored)
    else
      var s := match calls[0]
        case TrackCall(at) => Tracked(stored, at)
        case RequestCall(at) => Requested(stored, at)
        case CelebrateCall(m) => Celebrated(stored, m)
        case SaveScoreCall(score, c, at) =>
          if ValidScore(score) then ScoreSaved(stored, score, c, at) else Effective(stored);
      Run(Some(s), calls[1..])
  }

  /**
   * Submitting a score is terminal: whatever sessions, prompts and celebrations follow, feedback is
   * never requested again.
   */
  lemma {:induction false} GivenFeedbackIsFinal(s: UsageStats, calls: seq<GateCall>)
    requires s.feedbackGiven
    ensures !ShouldRequest(Run(Some(s), calls))
    decreases |calls|
  {
    if calls != [] {
      var next := match calls[0]
        case TrackCall(at) => Tracked(Some(s), at)
        case RequestCall(at) => Requested(Some(s), at)
        case CelebrateCall(m) => Celebrated(Some(s), m)
        case SaveScoreCall(score, c, at) =>
          if ValidScore(score) then ScoreSaved(Some(s), score, c, at) else s;
      assert next.feedbackGiven;
      assert Run(Some(s), calls) == Run(Some(next), calls[1..]);
      GivenFeedbackIsFinal(next, calls[1..]);
    }
  }

  // ---------------------------------------------------------------------------------------------
  // checkAndShowFeedback

  /** What `checkAndShowFeedback` puts in front of the user. */
  datatype Prompt = Celebrate(milestone: nat) | AskFeedback | NoPrompt

  /** Milestones take priority; feedback is only considered when no milestone is due. */
  function NextPrompt(stored: Option<UsageStats>): (p: Prompt)
    ensures p.Celebrate? <==> MilestoneReached(stored).Some?
    ensures p.Celebrate? ==> p.milestone == MilestoneReached(stored).value
    ensures p.AskFeedback? <==> MilestoneReached(stored).None? && ShouldRequest(Effective(stored))
  {
    var milestone := MilestoneReached(stored);
    if milestone.Some? then Celebrate(milestone.value)
    else if ShouldRequest(Effective(stored)) then AskFeedback
    else NoPrompt
  }

  /** The record after `checkAndShowFeedback` has marked what it showed. */
  function Prompted(stored: Option<UsageStats>, now: int): UsageStats {
    match NextPrompt(stored)
    case Celebrate(m) => Celebrated(stored, m)
    case AskFeedback => Requested(stored, now)
    case NoPrompt => Effective(stored)
  }

  /** A finished session: `trackSessionCompletion().then(() => checkAndShowFeedback())`. */
  function SessionEnded(stored: Option<UsageStats>, now: int): (r: UsageStats)
    ensures r.sessionsCompleted == Effective(stored).sessionsCompleted + 1
    ensures r.feedbackGiven == Effective(stored).feedbackGiven
  {
    Prompted(Some(Tracked(stored, now)), now)
  }

  /** When a milestone is celebrated the feedback schedule is left alone for that session. */
  lemma MilestoneSuppressesFeedback(stored: Option<UsageStats>, now: int)
    requires NextPrompt(Some(Tracked(stored, now))).Celebrate?
    ensures SessionEnded(stored, now).feedbackAttempts == Effective(stored).feedbackAttempts
    ensures SessionEnded(stored, now).feedbackRequested == Effective(stored).feedbackRequested
  {
  }

  /** The worked milestone examples: 3 is due at three sessions; after it, nothing until seven. */
  lemma MilestoneExamples()
    ensures MilestoneReached(Some(Blank.(sessionsCompleted := 3))) == Some(3)
    ensures MilestoneReached(Some(Blank.(sessionsCompleted := 5, celebratedMilestones := [3]))) == None
    ensures MilestoneReached(Some(Blank.(sessionsCompleted := 7, celebratedMilestones := [3]))) == Some(7)
  {
    assert Pending(3, 3, []);
    assert Pending(7, 7, [3]);
  }

  /** The schedule entries due for a record. */
  function PendingSet(stored: Option<UsageStats>): set<nat> {
    set m | m in Milestones && Pending(m, Effective(stored).sessionsCompleted, Effective(stored).celebratedMilestones)
  }

  /** Marking the reached milestone takes it off the due set and leaves the rest due. */
  lemma CelebratingShrinksPending(stored: Option<UsageStats>)
    requires MilestoneReached(stored).Some?
    ensures PendingSet(Some(Celebrated(stored, MilestoneReached(stored).value)))
            == PendingSet(stored) - {MilestoneReached(stored).value}
  {
  }

  // ---------------------------------------------------------------------------------------------
  // The storage record

  /** The `usageStats` entry of extension storage, with the helpers that read and rewrite it. */
  class UsageStore {
    var usageStats: Option<UsageStats>

    constructor (stored: Option<UsageStats>)
      ensures usageStats == stored
    {
      usageStats := stored;
    }

    method TrackSessionCompletion(now: int) returns (stats: UsageStats)
      modifies this
      ensures stats == Tracked(old(usageStats), now) && usageStats == Some(stats)
    {
      var s := if usageStats.Some? then usageStats.value else FreshStats(now);
      s := s.(sessionsCompleted := s.sessionsCompleted + 1);
      s := s.(lastSessionDate := Some(now));
      usageStats := Some(s);
      stats := s;
    }

    /** Read-only: whether to prompt, with the session count and the record it judged. */
    method ShouldRequestFeedback() returns (shouldRequest: bool, sessionCount: nat, stats: UsageStats)
      ensures stats == Effective(usageStats) && sessionCount == stats.sessionsCompleted
      ensures shouldRequest <==> stats.sessionsCompleted >= NextFeedbackAt(stats.feedbackAttempts) && !stats.feedbackGiven
    {
      stats := if usageStats.Some? then usageStats.value else Blank;
      var nextFeedbackAt := if stats.feedbackAttempts < |FeedbackSchedule| then FeedbackSchedule[stats.feedbackAttempts] else 100;
      shouldRequest := stats.sessionsCompleted >= nextFeedbackAt && !stats.feedbackGiven;
      sessionCount := stats.sessionsCompleted;
    }

    method MarkFeedbackRequested(now: int) returns (stats: UsageStats)
      modifies this
      ensures stats == Requested(old(usageStats), now) && usageStats == Some(stats)
    {
      var s := if usageStats.Some? then usageStats.value else Blank;
      s := s.(feedbackRequested := true);
      s := s.(feedbackAttempts := s.feedbackAttempts + 1);
      s := s.(lastFeedbackRequest := Some(now));
      usageStats := Some(s);
      stats := s;
    }

    /** Read-only: the first due milestone, scanning the schedule in order as `find` does. */
    method CheckMilestoneReached() returns (milestone: Option<nat>, sessionCount: nat)
      ensures milestone == MilestoneReached(usageStats)
      ensures sessionCount == Effective(usageStats).sessionsCompleted
    {
      var stats := if usageStats.Some? then usageStats.value else Blank;
      sessionCount := stats.sessionsCompleted;
      milestone := None;
      var i := 0;
      while i < |Milestones|
        invariant 0 <= i <= |Milestones|
        invariant FirstPending(Milestones, stats.sessionsCompleted, stats.celebratedMilestones)
                  == FirstPending(Milestones[i..], stats.sessionsCompleted, stats.celebratedMilestones)
      {
        assert Milestones[i..][1..] == Milestones[i + 1..];
        if Pending(Milestones[i], stats.sessionsCompleted, stats.celebratedMilestones) {
          milestone := Some(Milestones[i]);
          return;
        }
        i := i + 1;
      }
    }

    method MarkMilestoneCelebrated(milestone: int) returns (stats: UsageStats)
      modifies this
      ensures stats == Celebrated(old(usageStats), milestone) && usageStats == Some(stats)
    {
      var s := if usageStats.Some? then usageStats.value else Blank;
      if milestone !in s.celebratedMilestones {
        s := s.(celebratedMilestones := s.celebratedMilestones + [milestone]);
      }
      usageStats := Some(s);
      stats := s;
    }

    /**
     * `saveNPSScore`. An out-of-range score is rejected before storage is touched. The anonymous
     * remote submission that follows the local write is a parameter: its failure is swallowed.
     */
    method SaveNPSScore(score: int, category: Category, now: int, remoteSendSucceeds: bool)
      returns (outcome: SaveOutcome)
      modifies this
      ensures outcome == Saved <==> ValidScore(score)
      ensures outcome == RejectedOutOfRange ==> usageStats == old(usageStats)
      ensures outcome == Saved ==> usageStats == Some(ScoreSaved(old(usageStats), score, category, now))
    {
      if score < 0 || score > 10 {
        return RejectedOutOfRange;
      }
      var s := if usageStats.Some? then usageStats.value else Blank;
      s := s.(npsScore := Some(score), npsCategory := Some(category));
      s := s.(feedbackGiven := true, npsSubmissionDate := Some(now));
      usageStats := Some(s);
      // the remote submission runs only now; whatever `remoteSendSucceeds` is, the error (if any)
      // is logged and the promise still resolves
      outcome := Saved;
    }

    /** `checkAndShowFeedback`, with its delayed dialogs applied at once. */
    method CheckAndShowFeedback(now: int) returns (prompt: Prompt)
      modifies this
      ensures prompt == NextPrompt(old(usageStats))
      ensures usageStats == if prompt.NoPrompt? then old(usageStats) else Some(Prompted(old(usageStats), now))
    {
      var milestone, _ := CheckMilestoneReached();
      if milestone.Some? {
        // showCelebrationDialog marks the milestone as celebrated
        var _ := MarkMilestoneCelebrated(milestone.value);
        return Celebrate(milestone.value);
      }
      var shouldRequest, _, _ := ShouldRequestFeedback();
      if shouldRequest {
        var _ := MarkFeedbackRequested(now);
        return AskFeedback;
      }
      prompt := NoPrompt;
    }
  }
}

=== FILE: feedback_v1.dfy ===
/**
 * The feedback helpers of js/utils/feedback.js, an ES module the extension does not inject. Its
 * gate differs from the one in js/inject.js: feedback is asked for after three sessions, and once
 * it has been asked for, again only from six sessions on. It has no attempt counter and no milestones.
 */
module LegacyFeedback {
  import opened Support
  import opened Nps

  /** The stored `usageStats` record as this module writes it; undefined fields read as 0 or false. */
  datatype LegacyStats = LegacyStats(
    sessionsCompleted: nat,
    feedbackRequested: bool,
    feedbackGiven: bool,
    npsScore: Option<int>,
    npsCategory: Option<Category>,
    installDate: Option<int>,
    lastSessionDate: Option<int>,
    lastFeedbackRequest: Option<int>,
    npsSubmissionDate: Option<int>)

  /** The `{}` that `markFeedbackRequested` and `saveNPSScore` start from when nothing is stored. */
  const Blank: LegacyStats := LegacyStats(0, false, false, None, None, None, None, None, None)

  /** The default of `trackSessionCompletion` and `getUsageStats` when nothing is stored. */
  function DefaultStats(now: int): LegacyStats {
    Blank.(installDate := Some(now))
  }

  /** The record `shouldRequestFeedback` judges: its default has no install date. */
  function Effective(stored: Option<LegacyStats>): LegacyStats {
    if stored.Some? then stored.value else Blank
  }

  /** `trackSessionCompletion`: one more session, counted from 0 when nothing is stored. */
  function Tracked(stored: Option<LegacyStats>, now: int): (r: LegacyStats)
    ensures r.sessionsCompleted == Effective(stored).sessionsCompleted + 1
    ensures r.lastSessionDate == Some(now)
    ensures r.feedbackRequested == Effective(stored).feedbackRequested
    ensures r.feedbackGiven == Effective(stored).feedbackGiven
    ensures r.installDate == if stored.Some? then stored.value.installDate else Some(now)
    ensures r == (if stored.Some? then stored.value else DefaultStats(now))
                   .(sessionsCompleted := r.sessionsCompleted, lastSessionDate := r.lastSessionDate)
  {
    var s := if stored.Some? then stored.value else DefaultStats(now);
    s.(sessionsCompleted := s.sessionsCompleted + 1, lastSessionDate := Some(now))
  }

  /** The `shouldRequest` expression: at least 3 sessions, no score given, and 6 once already asked. */
  predicate ShouldRequest(s: LegacyStats) {
    && s.sessionsCompleted >= 3
    && !s.feedbackGiven
    && (!s.feedbackRequested || s.sessionsCompleted >= 6)
  }

  /** The gate restated as a threshold: 3 sessions before the first request, 6 after it. */
  lemma ShouldRequestThreshold(s: LegacyStats)
    ensures ShouldRequest(s) <==> !s.feedbackGiven && s.sessionsCompleted >= (if s.feedbackRequested then 6 else 3)
  {
  }

  /** `markFeedbackRequested`: set the flag and the time, nothing else. */
  function Requested(stored: Option<LegacyStats>, now: int): (r: LegacyStats)
    ensures r.feedbackRequested && r.lastFeedbackRequest == Some(now)
    ensures r.sessionsCompleted == Effective(stored).sessionsCompleted
    ensures r.feedbackGiven == Effective(stored).feedbackGiven
    ensures r.npsScore == Effective(stored).npsScore
    ensures r == Effective(stored).(feedbackRequested := r.feedbackRequested, lastFeedbackRequest := r.lastFeedbackRequest)
  {
    Effective(stored).(feedbackRequested := true, lastFeedbackRequest := Some(now))
  }

  /** `saveNPSScore` for an accepted score: the record written back. */
  function ScoreSaved(stored: Option<LegacyStats>, score: int, category: Category, now: int): (r: LegacyStats)
    ensures r.feedbackGiven && !ShouldRequest(r)
    ensures r.npsScore == Some(score) && r.npsCategory == Some(category) && r.npsSubmissionDate == Some(now)
    ensures r.sessionsCompleted == Effective(stored).sessionsCompleted
    ensures r.feedbackRequested == Effective(stored).feedbackRequested
    ensures r == Effective(stored).(npsScore := r.npsScore, npsCategory := r.npsCategory, feedbackGiven := r.feedbackGiven,
                                    npsSubmissionDate := r.npsSubmissionDate)
  {
    Effective(stored).(npsScore := Some(score), npsCategory := Some(category), feedbackGiven := true,
                    npsSubmissionDate := Some(now))
  }

  /**
   * "Only once unless declined": once asked and past six sessions, marking the request changes
   * nothing the gate reads, so every later session asks again until a score is given.
   */
  lemma {:induction false} AsksEverySessionFromSix(s: LegacyStats, times: seq<int>)
    requires s.feedbackRequested && !s.feedbackGiven && s.sessionsCompleted >= 6
    ensures ShouldRequest(s)
    ensures ShouldRequest(AskedThenTracked(s, times))
    decreases |times|
  {
    if times != [] {
      var next := Tracked(Some(Requested(Some(s), times[0])), times[0]);
      assert AskedThenTracked(s, times) == AskedThenTracked(next, times[1..]);
      AsksEverySessionFromSix(next, times[1..]);
    }
  }

  /** Prompt-and-mark followed by one completed session, once per entry of `times`. */
  function AskedThenTracked(s: LegacyStats, times: seq<int>): LegacyStats
    decreases |times|
  {
    if times == [] then s
    else AskedThenTracked(Tracked(Some(Requested(Some(s), times[0])), times[0]), times[1..])
  }

  /** A call of one of the helpers that write the record. */
  datatype LegacyCall =
    | TrackCall(at: int)
    | RequestCall(at: int)
    | SaveScoreCall(score: int, category: Category, at: int)

  /** The stored record after running the calls in order; a rejected score changes nothing. */
  function Run(stored: Option<LegacyStats>, calls: seq<LegacyCall>): LegacyStats
    decreases |calls|
  {
    if calls == [] then Effective(stored)
    else
      var s := match calls[0]
        case TrackCall(at) => Tracked(stored, at)
        case RequestCall(at) => Requested(stored, at)
        case SaveScoreCall(score, c, at) =>
          if ValidScore(score) then ScoreSaved(stored, score, c, at) else Effective(stored);
      Run(Some(s), calls[1..])
  }

  /** A given score ends the prompts: whatever sessions, requests and saves follow, the gate stays shut. */
  lemma {:induction false} GivenFeedbackIsFinal(s: LegacyStats, calls: seq<LegacyCall>)
    requires s.feedbackGiven
    ensures !ShouldRequest(Run(Some(s), calls))
    decreases |calls|
  {
    if calls != [] {
      var next := match calls[0]
        case TrackCall(at) => Tracked(Some(s), at)
        case RequestCall(at) => Requested(Some(s), at)
        case SaveScoreCall(score, c, at) =>
          if ValidScore(score) then ScoreSaved(Some(s), score, c, at) else s;
      assert next.feedbackGiven;
      assert Run(Some(s), calls) == Run(Some(next), calls[1..]);
      GivenFeedbackIsFinal(next, calls[1..]);
    }
  }

  /** The `usageStats` entry of extension storage, with the helpers this module exports. */
  class FeedbackStore {
    var usageStats: Option<LegacyStats>

    constructor (stored: Option<LegacyStats>)
      ensures usageStats == stored
    {
      usageStats := stored;
    }

    method TrackSessionCompletion(now: int) returns (stats: LegacyStats)
      modifies this
      ensures stats == Tracked(old(usageStats), now) && usageStats == Some(stats)
    {
      var s := if usageStats.Some? then usageStats.value else DefaultStats(now);
      s := s.(sessionsCompleted := s.sessionsCompleted + 1);
      s := s.(lastSessionDate := Some(now));
      usageStats := Some(s);
      stats := s;
    }

    /** Read-only: the gate's verdict, the session count and the record judged. */
    method ShouldRequestFeedback() returns (shouldRequest: bool, sessionCount: nat, stats: LegacyStats)
      ensures stats == Effective(usageStats) && sessionCount == stats.sessionsCompleted
      ensures shouldRequest <==> !stats.feedbackGiven && stats.sessionsCompleted >= (if stats.feedbackRequested then 6 else 3)
    {
      stats := if usageStats.Some? then usageStats.value else Blank;
      shouldRequest := stats.sessionsCompleted >= 3 && !stats.feedbackGiven
                       && (!stats.feedbackRequested || stats.sessionsCompleted >= 6);
      sessionCount := stats.sessionsCompleted;
    }

    method MarkFeedbackRequested(now: int) returns (stats: LegacyStats)
      modifies this
      ensures stats == Requested(old(usageStats), now) && usageStats == Some(stats)
    {
      var s := if usageStats.Some? then usageStats.value else Blank;
      s := s.(feedbackRequested := true);
      s := s.(lastFeedbackRequest := Some(now));
      usageStats := Some(s);
      stats := s;
    }

    /** `saveNPSScore`: an out-of-range score is rejected before storage is read or written. */
    method SaveNPSScore(score: int, category: Category, now: int) returns (outcome: SaveOutcome)
      modifies this
      ensures outcome == Saved <==> ValidScore(score)
      ensures outcome == RejectedOutOfRange ==> usageStats == old(usageStats)
      ensures outcome == Saved ==> usageStats == Some(ScoreSaved(old(usageStats), score, category, now))
    {
      if score < 0 || score > 10 {
        return RejectedOutOfRange;
      }
      var s := if usageStats.Some? then usageStats.value else Blank;
      s := s.(npsScore := Some(score));
      s := s.(npsCategory := Some(category));
      s := s.(feedbackGiven := true);
      s := s.(npsSubmissionDate := Some(now));
      usageStats := Some(s);
      outcome := Saved;
    }

    /** Read-only: the stored record, or a fresh default with no sessions and no feedback. */
    method GetUsageStats(now: int) returns (stats: LegacyStats)
      ensures usageStats.Some? ==> stats == usageStats.value
      ensures usageStats.None? ==> stats.sessionsCompleted == 0 && !stats.feedbackRequested && !stats.feedbackGiven
                                   && stats.npsScore.None? && stats.installDate == Some(now)
                                   && stats.npsCategory.None? && stats.lastSessionDate.None?
                                   && stats.lastFeedbackRequest.None? && stats.npsSubmissionDate.None?
    {
      stats := if usageStats.Some? then usageStats.value else DefaultStats(now);
    }
  }
}

=== FILE: intention.dfy ===
/**
 * The session timer of the `Intention` widget in js/inject.js. The widget keeps the running
 * timer in `currentTimer`, the interval handle in `timerInterval` and a completion flag in
 * `timerCompleted`; the timer record is also written to the tab's session storage so that a reload
 * can resume it. Remaining time is always derived from the absolute deadline.
 *
 * The interval handle is abstracted to `intervalActive`; an interval whose handle was overwritten
 * without being cleared keeps running and is counted in `strayIntervals`. `Date.now()` is the
 * parameter `now` of every method, and a tick of the interval is a call of `UpdateTimerDisplay`.
 */
module IntentionTimer {
  import opened Support
  import opened Engagement

  /** The record kept in `currentTimer` and in session storage (`active` is always true). */
  datatype TimerState =
    | Timed(startTime: int, endTime: int, totalSeconds: int, minutes: int, selectedButtonText: Option<string>)
    | Infinite(startTime: int, selectedButtonText: Option<string>)

  /** What the start button has selected: nothing yet, "no timer", or `parseInt` of a duration. */
  datatype TimerChoice = NothingSelected | NoTimer | Minutes(n: int) | NotANumber

  /** `Math.ceil(Math.max(0, endTime - now) / 1000)`: the least whole number of seconds covering what is left. */
  function RemainingSeconds(endTime: int, now: int): (r: nat)
    ensures r == 0 <==> now >= endTime
    ensures r * 1000 >= endTime - now
    ensures r > 0 ==> (r - 1) * 1000 < endTime - now
  {
    var remaining := Max(0, endTime - now);
    (remaining + 999) / 1000
  }

  /** Later ticks never show more time than earlier ones. */
  lemma RemainingNonIncreasing(endTime: int, earlier: int, later: int)
    requires earlier <= later
    ensures RemainingSeconds(endTime, later) <= RemainingSeconds(endTime, earlier)
  {
  }

  /** A timer started for `minutes` shows exactly `minutes * 60` seconds at its start. */
  lemma FullDurationAtStart(minutes: int, now: int)
    requires minutes > 0
    ensures RemainingSeconds(now + minutes * 60 * 1000, now) == minutes * 60
  {
    var r := RemainingSeconds(now + minutes * 60 * 1000, now);
    assert (r - 1) * 1000 < minutes * 60 * 1000 <= r * 1000;
  }

  /** The text of the tick: whole minutes and `m` from one minute up, otherwise seconds and `s`. */
  function TimerText(remainingSeconds: nat): (text: string)
    ensures 2 <= |text| && AllDigits(text[..|text| - 1])
    ensures text[|text| - 1] == if remainingSeconds >= 60 then 'm' else 's'
    ensures ParseDecimal(text[..|text| - 1])
            == if remainingSeconds >= 60 then remainingSeconds / 60 else remainingSeconds
    ensures |text| == 2 || text[0] != '0'
  {
    var minutes := remainingSeconds / 60;
    var seconds := remainingSeconds % 60;
    DecimalRoundTrip(minutes);
    DecimalRoundTrip(seconds);
    var text := if minutes > 0 then Decimal(minutes) + "m" else Decimal(seconds) + "s";
    assert text[..|text| - 1] == if minutes > 0 then Decimal(minutes) else Decimal(seconds);
    text
  }

  class Intention {
    /** The `usageStats` storage the session helpers update. */
    const store: UsageStore
    var currentTimer: Option<TimerState>
    /** `timerInterval !== null`. */
    var intervalActive: bool
    /** Intervals still running whose handle was overwritten without `clearInterval`. */
    var strayIntervals: nat
    var timerCompleted: bool
    /** The text of `selectedTimerButton`, if one is selected. */
    var selectedButtonText: Option<string>
    /** The `<id>-timer` entry of session storage. */
    var savedTimer: Option<TimerState>
    /** The `<id>-intention` entry of session storage. */
    var savedIntention: Option<string>
    var completeDialogVisible: bool

    constructor (store: UsageStore, savedTimer: Option<TimerState>, savedIntention: Option<string>)
      ensures this.store == store && this.savedTimer == savedTimer && this.savedIntention == savedIntention
      ensures currentTimer == None && !intervalActive && strayIntervals == 0 && !timerCompleted
      ensures selectedButtonText == None && !completeDialogVisible
    {
      this.store := store;
      currentTimer := None;
      intervalActive := false;
      strayIntervals := 0;
      timerCompleted := false;
      selectedButtonText := None;
      this.savedTimer := savedTimer;
      this.savedIntention := savedIntention;
      completeDialogVisible := false;
    }

    /** Clicking a duration button makes it the selected one. */
    method ChooseTimerButton(text: string)
      modifies this`selectedButtonText
      ensures selectedButtonText == Some(text)
    {
      selectedButtonText := Some(text);
    }

    /** The start button: "no timer" starts an infinite session, a positive duration a timer, anything else nothing. */
    method OnStartClicked(choice: TimerChoice, now: int)
      modifies this, store
      ensures choice.NoTimer? ==>
                && currentTimer == Some(Infinite(now, old(selectedButtonText)))
                && savedTimer == currentTimer && !timerCompleted && !intervalActive
                && strayIntervals == old(strayIntervals)
      ensures choice.Minutes? && choice.n > 0 ==>
                && currentTimer == Some(Timed(now, now + choice.n * 60 * 1000, choice.n * 60, choice.n, old(selectedButtonText)))
                && savedTimer == currentTimer && !timerCompleted && intervalActive
                && strayIntervals == (if old(intervalActive) then old(strayIntervals) + 1 else old(strayIntervals))
      ensures selectedButtonText == old(selectedButtonText) && savedIntention == old(savedIntention)
      ensures completeDialogVisible == old(completeDialogVisible)
      ensures !(choice.NoTimer? || (choice.Minutes? && choice.n > 0)) ==> unchanged(this)
      ensures store.usageStats == old(store.usageStats)
    {
      match choice {
        case NoTimer => StartInfiniteSession(now);
        case Minutes(n) =>
          if n > 0 {
            StartTimer(n, now);
          }
        case _ =>
      }
    }

    /** `startTimer`; its only caller passes a positive duration. */
    method StartTimer(minutes: int, now: int)
      requires minutes > 0
      modifies this, store
      ensures currentTimer == Some(Timed(now, now + minutes * 60 * 1000, minutes * 60, minutes, old(selectedButtonText)))
      ensures savedTimer == currentTimer && !timerCompleted && intervalActive
      // unlike startInfiniteSession and extendTimer, the previous interval is not cleared
      ensures strayIntervals == if old(intervalActive) then old(strayIntervals) + 1 else old(strayIntervals)
      ensures selectedButtonText == old(selectedButtonText) && savedIntention == old(savedIntention)
      ensures completeDialogVisible == old(completeDialogVisible)
      ensures store.usageStats == old(store.usageStats)
    {
      var totalSeconds := minutes * 60;
      var startTime := now;
      var endTime := startTime + totalSeconds * 1000;
      currentTimer := Some(Timed(startTime, endTime, totalSeconds, minutes, selectedButtonText));
      timerCompleted := false;
      savedTimer := currentTimer;
      var _ := UpdateTimerDisplay(now);
      if intervalActive {
        strayIntervals := strayIntervals + 1;
      }
      intervalActive := true;
    }

    method StartInfiniteSession(now: int)
      modifies this
      ensures currentTimer == Some(Infinite(now, old(selectedButtonText)))
      ensures savedTimer == currentTimer && !timerCompleted && !intervalActive
      ensures strayIntervals == old(strayIntervals)
      ensures selectedButtonText == old(selectedButtonText) && savedIntention == old(savedIntention)
      ensures completeDialogVisible == old(completeDialogVisible)
    {
      intervalActive := false;
      currentTimer := Some(Infinite(now, selectedButtonText));
      timerCompleted := false;
      savedTimer := currentTimer;
    }

    /**
     * Selects the last button whose text is the saved one, as the `forEach` over the buttons does;
     * a missing or empty saved text is falsy and selects nothing.
     */
    method RestoreSelectedButton(text: Option<string>, buttonTexts: seq<string>)
      modifies this`selectedButtonText
      ensures selectedButtonText == if text.Some? && text.value != "" && text.value in buttonTexts then text else old(selectedButtonText)
    {
      if text.Some? && text.value != "" {
        var i := 0;
        while i < |buttonTexts|
          invariant 0 <= i <= |buttonTexts|
          invariant selectedButtonText == if text.value in buttonTexts[..i] then text else old(selectedButtonText)
        {
          assert buttonTexts[..i + 1] == buttonTexts[..i] + [buttonTexts[i]];
          if buttonTexts[i] == text.value {
            selectedButtonText := text;
          }
          i := i + 1;
        }
        assert buttonTexts[..i] == buttonTexts;
      }
    }

    /**
     * `resumeTimer`, given the timer record read back from session storage after a reload. An
     * expired timer completes at once and never starts ticking; note that this path leaves
     * `timerCompleted` and the stored record as they were.
     */
    method ResumeTimer(timer: TimerState, now: int, buttonTexts: seq<string>)
      modifies this, store
      ensures savedTimer == old(savedTimer) && savedIntention == old(savedIntention)
      ensures timerCompleted == old(timerCompleted)
      ensures timer.Infinite? ==>
                && currentTimer == Some(timer) && intervalActive == old(intervalActive)
                && strayIntervals == old(strayIntervals) && completeDialogVisible == old(completeDialogVisible)
                && store.usageStats == old(store.usageStats)
      ensures timer.Timed? && now >= timer.endTime ==>
                && currentTimer == old(currentTimer) && !intervalActive && completeDialogVisible
                && strayIntervals == old(strayIntervals) && selectedButtonText == old(selectedButtonText)
                && store.usageStats == Some(SessionEnded(old(store.usageStats), now))
      ensures timer.Timed? && now < timer.endTime ==>
                && currentTimer == Some(timer) && intervalActive
                && strayIntervals == (if old(intervalActive) then old(strayIntervals) + 1 else old(strayIntervals))
                && completeDialogVisible == old(completeDialogVisible)
                && store.usageStats == old(store.usageStats)
      ensures !(timer.Timed? && now >= timer.endTime) ==>
                selectedButtonText
                == if timer.selectedButtonText.Some? && timer.selectedButtonText.value != ""
                      && timer.selectedButtonText.value in buttonTexts
                   then timer.selectedButtonText else old(selectedButtonText)
    {
      if timer.Infinite? {
        currentTimer := Some(timer);
        RestoreSelectedButton(timer.selectedButtonText, buttonTexts);
        return;
      }
      if now >= timer.endTime {
        TimerComplete(now);
        return;
      }
      currentTimer := Some(timer);
      RestoreSelectedButton(timer.selectedButtonText, buttonTexts);
      var _ := UpdateTimerDisplay(now);
      if intervalActive {
        strayIntervals := strayIntervals + 1;
      }
      intervalActive := true;
    }

    /**
     * `updateTimerDisplay`, the tick. Without a timer, or for an infinite one, nothing happens.
     * Otherwise the remaining seconds come from the deadline; the first tick that finds none left
     * while `timerCompleted` is false completes the session, and every other tick only shows the text.
     */
    method UpdateTimerDisplay(now: int) returns (text: Option<string>)
      modifies this, store
      ensures old(currentTimer).None? || old(currentTimer).value.Infinite? ==>
                text.None? && unchanged(this) && store.usageStats == old(store.usageStats)
      ensures old(currentTimer).Some? && old(currentTimer).value.Timed? &&
              (now < old(currentTimer).value.endTime || old(timerCompleted)) ==>
                && text == Some(TimerText(RemainingSeconds(old(currentTimer).value.endTime, now)))
                && unchanged(this) && store.usageStats == old(store.usageStats)
      ensures old(currentTimer).Some? && old(currentTimer).value.Timed? &&
              now >= old(currentTimer).value.endTime && !old(timerCompleted) ==>
                && text.None? && timerCompleted && !intervalActive && completeDialogVisible
                && currentTimer == old(currentTimer) && strayIntervals == old(strayIntervals)
                && selectedButtonText == old(selectedButtonText)
                && savedTimer == old(savedTimer) && savedIntention == old(savedIntention)
                && store.usageStats == Some(SessionEnded(old(store.usageStats), now))
    {
      if currentTimer.None? {
        return None;
      }
      if currentTimer.value.Infinite? {
        return None;
      }
      var remainingSeconds := RemainingSeconds(currentTimer.value.endTime, now);
      if remainingSeconds <= 0 && !timerCompleted {
        timerCompleted := true;
        TimerComplete(now);
        return None;
      }
      text := Some(TimerText(remainingSeconds));
    }

    /** `timerComplete`: stop ticking, count the session, run the gate, show the dialog. */
    method TimerComplete(now: int)
      modifies this, store
      ensures !intervalActive && completeDialogVisible
      ensures store.usageStats == Some(SessionEnded(old(store.usageStats), now))
      ensures currentTimer == old(currentTimer) && timerCompleted == old(timerCompleted)
      ensures strayIntervals == old(strayIntervals) && selectedButtonText == old(selectedButtonText)
      ensures savedTimer == old(savedTimer) && savedIntention == old(savedIntention)
    {
      intervalActive := false;
      var _ := store.TrackSessionCompletion(now);
      var _ := store.CheckAndShowFeedback(now);
      completeDialogVisible := true;
    }

    /**
     * `extendTimer`; its only caller passes 5. The new deadline counts from `now`, whatever the
     * old one was, and the saved button text is kept.
     */
    method ExtendTimer(additionalMinutes: int, now: int) returns (text: Option<string>)
      requires additionalMinutes > 0
      modifies this, store
      ensures currentTimer == Some(Timed(now, now + additionalMinutes * 60 * 1000, additionalMinutes * 60, additionalMinutes,
                                         if old(currentTimer).Some? then old(currentTimer).value.selectedButtonText else None))
      ensures savedTimer == currentTimer && !timerCompleted && intervalActive && !completeDialogVisible
      ensures strayIntervals == old(strayIntervals)
      ensures selectedButtonText == old(selectedButtonText) && savedIntention == old(savedIntention)
      ensures text == Some(TimerText(additionalMinutes * 60))
      ensures store.usageStats == old(store.usageStats)
    {
      var additionalMs := additionalMinutes * 60 * 1000;
      var newEndTime := now + additionalMs;
      var newTotalSeconds := additionalMinutes * 60;
      var buttonText := if currentTimer.Some? then currentTimer.value.selectedButtonText else None;
      currentTimer := Some(Timed(now, newEndTime, newTotalSeconds, additionalMinutes, buttonText));
      savedTimer := currentTimer;
      timerCompleted := false;
      completeDialogVisible := false;
      // the old interval is cleared and a fresh one takes its handle
      intervalActive := true;
      FullDurationAtStart(additionalMinutes, now);
      text := UpdateTimerDisplay(now);
    }

    /** `hideCelebrationDialog`: closing a celebration runs the whole gate again. */
    method HideCelebrationDialog(now: int) returns (prompt: Prompt)
      modifies store
      ensures prompt == NextPrompt(old(store.usageStats))
      ensures store.usageStats == if prompt.NoPrompt? then old(store.usageStats) else Some(Prompted(old(store.usageStats), now))
    {
      prompt := store.CheckAndShowFeedback(now);
    }

    /** `resetAndEditIntention`: drop the timer and its stored record; the intention stays saved. */
    method ResetAndEditIntention()
      modifies this
      ensures currentTimer == None && !timerCompleted && !intervalActive
      ensures selectedButtonText == None && savedTimer == None && !completeDialogVisible
      ensures savedIntention == old(savedIntention) && strayIntervals == old(strayIntervals)
    {
      intervalActive := false;
      currentTimer := None;
      selectedButtonText := None;
      timerCompleted := false;
      savedTimer := None;
      completeDialogVisible := false;
    }

    /** `finishSession` ("new intention"): count the session, run the gate, and clear everything stored. */
    method FinishSession(now: int)
      modifies this, store
      ensures currentTimer == None && !timerCompleted && !intervalActive
      ensures selectedButtonText == None && savedTimer == None && savedIntention == None && !completeDialogVisible
      ensures strayIntervals == old(strayIntervals)
      ensures store.usageStats == Some(SessionEnded(old(store.usageStats), now))
    {
      var _ := store.TrackSessionCompletion(now);
      var _ := store.CheckAndShowFeedback(now);
      intervalActive := false;
      currentTimer := None;
      selectedButtonText := None;
      timerCompleted := false;
      savedTimer := None;
      savedIntention := None;
      completeDialogVisible := false;
    }
  }

  /** A deadline seen by two ticks completes the session once: the count grows by exactly one. */
  method ExpiryCountsOnce(stats: UsageStats, minutes: int, startedAt: int, firstTick: int, secondTick: int)
    returns (sessionsAfter: nat, dialogShown: bool, ticking: bool)
    requires minutes > 0 && startedAt + minutes * 60 * 1000 <= firstTick <= secondTick
    ensures sessionsAfter == stats.sessionsCompleted + 1 && dialogShown && !ticking
  {
    var store := new UsageStore(Some(stats));
    var widget := new Intention(store, None, Some("read the docs"));
    widget.StartTimer(minutes, startedAt);
    var _ := widget.UpdateTimerDisplay(firstTick);
    var _ := widget.UpdateTimerDisplay(secondTick);
    sessionsAfter := Effective(store.usageStats).sessionsCompleted;
    dialogShown := widget.completeDialogVisible;
    ticking := widget.intervalActive;
  }

  /**
   * The expired-resume path neither clears the stored timer nor sets `timerCompleted`, so each
   * reload of the page while the completion dialog is open counts the session again.
   */
  method ExpiredTimerCountsOnEveryReload(stats: UsageStats, timer: TimerState, firstLoad: int, secondLoad: int)
    returns (sessionsAfter: nat, storedAfter: Option<TimerState>)
    requires timer.Timed? && timer.endTime <= firstLoad <= secondLoad
    ensures sessionsAfter == stats.sessionsCompleted + 2
    ensures storedAfter == Some(timer)
  {
    var store := new UsageStore(Some(stats));
    var page := new Intention(store, Some(timer), Some("read the docs"));
    page.ResumeTimer(timer, firstLoad, []);
    var reloaded := new Intention(store, page.savedTimer, page.savedIntention);
    reloaded.ResumeTimer(timer, secondLoad, []);
    sessionsAfter := Effective(store.usageStats).sessionsCompleted;
    storedAfter := reloaded.savedTimer;
  }

  /**
   * The milestones celebrated when every celebration dialog is dismissed in turn, starting from
   * the record `stored`: each dismissal reruns the gate, which celebrates and marks the next due
   * milestone (`NextPrompt` celebrates exactly `MilestoneReached`, and `Prompted` then marks it).
   * They come in strictly increasing order, starting with the first one due, and the sequence
   * ends with a record that has none due.
   */
  function Dismissals(stored: Option<UsageStats>): (celebrated: seq<nat>)
    ensures celebrated == [] <==> MilestoneReached(stored).None?
    ensures celebrated != [] ==> celebrated[0] == MilestoneReached(stored).value
    decreases |PendingSet(stored)|
  {
    var reached := MilestoneReached(stored);
    if reached.None? then []
    else
      var m := reached.value;
      var after := Some(Celebrated(stored, m));
      CelebratedNotReachedAgain(stored);
      CelebratingShrinksPending(stored);
      [m] + Dismissals(after)
  }

  /** Every entry is a milestone of the schedule, each later than the one before. */
  predicate MilestonesInOrder(celebrated: seq<nat>) {
    && (forall i :: 0 <= i < |celebrated| ==> celebrated[i] in Milestones)
    && (forall i :: 0 < i < |celebrated| ==> celebrated[i - 1] < celebrated[i])
  }

  lemma PrependInOrder(m: nat, rest: seq<nat>)
    requires m in Milestones && MilestonesInOrder(rest)
    requires rest != [] ==> m < rest[0]
    ensures MilestonesInOrder([m] + rest)
  {
    var s := [m] + rest;
    forall i | 0 < i < |s| ensures s[i - 1] < s[i] {
      if i > 1 { assert s[i - 1] == rest[i - 2]; }
    }
  }

  /** Each dismissal celebrates a later milestone of the schedule than the one before it. */
  lemma {:induction false} DismissalsInOrder(stored: Option<UsageStats>)
    ensures MilestonesInOrder(Dismissals(stored))
    decreases |PendingSet(stored)|
  {
    var reached := MilestoneReached(stored);
    if reached.Some? {
      var m := reached.value;
      var after := Some(Celebrated(stored, m));
      CelebratedNotReachedAgain(stored);
      CelebratingShrinksPending(stored);
      DismissalsInOrder(after);
      PrependInOrder(m, Dismissals(after));
    }
  }
}

=== FILE: nps.dfy ===
/**
 * Net Promoter Score bands. `getNPSCategory` is written out identically in js/inject.js and in
 * js/utils/feedback.js; both feedback modules of this model use this one definition.
 */
module Nps {

  datatype Category = Detractor | Passive | Promoter

  /** The outcome of `saveNPSScore`: it rejects out-of-range scores and otherwise resolves. */
  datatype SaveOutcome = Saved | RejectedOutOfRange

  /** The range `saveNPSScore` accepts: the negation of `score < 0 || score > 10`. */
  predicate ValidScore(score: int) {
    0 <= score <= 10
  }

  /** `getNPSCategory`: the bands partition the scores at 6 and 8. */
  function CategoryOf(score: int): (c: Category)
    ensures c == Detractor <==> score <= 6
    ensures c == Passive <==> 7 <= score <= 8
    ensures c == Promoter <==> 9 <= score
  {
    if score <= 6 then Detractor
    else if score <= 8 then Passive
    else Promoter
  }
}

=== FILE: onboarding.dfy ===
/**
 * The onboarding page (js/onboarding.js): a carousel of seven slides with progress dots, and a
 * one-hour offer countdown kept in `localStorage` across reloads.
 *
 * The slide elements are modelled as an array of "has the `active` class" flags, the dots as an
 * array of their classes; the slide whose `data-slide` attribute is `i` is `slides[i]`.
 */
module Onboarding {
  import opened Support

  const TotalSlides: nat := 7

  /** The countdown's start: 60 minutes in seconds. */
  const InitialSeconds: int := 60 * 60

  // ---------------------------------------------------------------------------------------------
  // Carousel

  /** The classes a progress dot carries: none, `active` or `completed`. */
  datatype DotState = Plain | Active | Completed

  /** Dots before the shown slide are completed, the dot of the shown slide is active. */
  function DotFor(j: int, index: int): DotState {
    if j < index then Completed else if j == index then Active else Plain
  }

  /** The classes of `n` dots after `showSlide(index)`. */
  function DotRow(n: nat, index: int): seq<DotState> {
    seq(n, j => DotFor(j, index))
  }

  function Repeat<T>(x: T, k: nat): (r: seq<T>)
    ensures |r| == k && forall i :: 0 <= i < k ==> r[i] == x
  {
    if k == 0 then [] else Repeat(x, k - 1) + [x]
  }

  /**
   * The progress bar: for a slide in range, completed dots, one active dot, then plain dots. The
   * index is not range-checked, so an index past the end marks every dot completed and a negative
   * one leaves all of them plain.
   */
  lemma {:induction false} DotRowShape(n: nat, index: int)
    ensures 0 <= index < n ==>
              DotRow(n, index) == Repeat(Completed, index) + [Active] + Repeat(Plain, n - index - 1)
    ensures index >= n ==> DotRow(n, index) == Repeat(Completed, n)
    ensures index < 0 ==> DotRow(n, index) == Repeat(Plain, n)
  {
    var row := DotRow(n, index);
    if 0 <= index < n {
      var shape := Repeat(Completed, index) + [Active] + Repeat(Plain, n - index - 1);
      assert |row| == |shape|;
      forall j | 0 <= j < n
        ensures row[j] == shape[j]
      {
        if j < index {
          assert shape[j] == Repeat(Completed, index)[j];
        } else if j > index {
          assert shape[j] == Repeat(Plain, n - index - 1)[j - index - 1];
        }
      }
    } else if index >= n {
      assert forall j :: 0 <= j < n ==> row[j] == Repeat(Completed, n)[j];
    } else {
      assert forall j :: 0 <= j < n ==> row[j] == Repeat(Plain, n)[j];
    }
  }

  // ---------------------------------------------------------------------------------------------
  // Countdown

  /** `MM:SS` with both fields zero-padded to two digits; the minutes field grows past 99. */
  function ClockText(t: nat): (s: string)
    ensures |s| >= 5 && s[|s| - 3] == ':'
    ensures AllDigits(s[..|s| - 3]) && AllDigits(s[|s| - 2..])
    ensures ParseDecimal(s[..|s| - 3]) * 60 + ParseDecimal(s[|s| - 2..]) == t
    ensures ParseDecimal(s[|s| - 2..]) < 60
    ensures t < 6000 ==> |s| == 5
    ensures 600 <= t ==> s[0] != '0'
  {
    var minutes, seconds := Padded(t / 60), Padded(t % 60);
    var s := minutes + ":" + seconds;
    assert s[..|s| - 3] == minutes && s[|s| - 2..] == seconds && s[0] == minutes[0];
    s
  }

  /** What `updateTimer` writes into the timer element for a remaining time. */
  function DisplayText(t: int): (s: string)
    ensures t <= 0 <==> s == "Expired"
    ensures t > 0 ==> s == ClockText(t)
  {
    if t <= 0 then "Expired" else ClockText(t)
  }

  /**
   * The remaining time restored on load: the saved remaining time less the whole seconds since
   * the saved timestamp, never below zero.
   */
  function Restored(saved: int, timestamp: int, now: int): (r: nat)
    ensures now >= timestamp ==> r <= Max(saved, 0)
    ensures r > 0 ==> (saved - r) * 1000 <= now - timestamp < (saved - r + 1) * 1000
    ensures r == 0 <==> saved * 1000 <= now - timestamp
  {
    Max(0, saved - (now - timestamp) / 1000)
  }

  /** Reloading exactly `k` whole seconds after the save takes `k` seconds off, never below zero. */
  lemma RestoredAfterWholeSeconds(saved: int, timestamp: int, k: nat)
    ensures Restored(saved, timestamp, timestamp + k * 1000) == Max(0, saved - k)
  {
    assert (timestamp + k * 1000 - timestamp) / 1000 == (k * 1000) / 1000 == k;
  }

  /** The remaining time before the first `updateTimer` of a page load. */
  function LoadedRemaining(savedTime: Option<int>, savedTimestamp: Option<int>, current: int, now: int): int {
    if savedTime.Some? && savedTimestamp.Some? then Restored(savedTime.value, savedTimestamp.value, now) else current
  }

  /** The two `localStorage` entries of the countdown: remaining seconds and the start timestamp. */
  class TimerStorage {
    var timer: Option<int>
    var timestamp: Option<int>

    constructor (timer: Option<int>, timestamp: Option<int>)
      ensures this.timer == timer && this.timestamp == timestamp
    {
      this.timer := timer;
      this.timestamp := timestamp;
    }
  }

  /** The page's globals and the DOM state the script changes. */
  class OnboardingPage {
    var currentSlide: int
    const slides: array<bool>
    const dots: array<DotState>
    var timeRemaining: int
    var display: string
    const storage: TimerStorage

    /** A freshly loaded page: the markup shows the first slide, the countdown is at one hour. */
    constructor (slideCount: nat, storage: TimerStorage)
      ensures currentSlide == 0 && timeRemaining == InitialSeconds && display == ""
      ensures this.storage == storage && fresh(slides) && fresh(dots)
      ensures slides.Length == slideCount && dots.Length == slideCount
      ensures dots[..] == DotRow(slideCount, 0)
      ensures forall i :: 0 <= i < slides.Length ==> slides[i] == (i == 0)
    {
      currentSlide := 0;
      slides := new bool[slideCount](i => i == 0);
      dots := new DotState[slideCount](j => DotFor(j, 0));
      timeRemaining := InitialSeconds;
      display := "";
      this.storage := storage;
    }

    /** `showSlide`: exactly the slide `index` is active, the dots show the progress to it. */
    method ShowSlide(index: int)
      modifies this, slides, dots
      ensures currentSlide == index
      ensures forall i :: 0 <= i < slides.Length ==> slides[i] == (i == index)
      ensures dots[..] == DotRow(dots.Length, index)
      ensures timeRemaining == old(timeRemaining) && display == old(display)
    {
      for i := 0 to slides.Length
        invariant forall k :: 0 <= k < i ==> !slides[k]
        invariant timeRemaining == old(timeRemaining) && display == old(display)
      {
        slides[i] := false;
      }
      for j := 0 to dots.Length
        invariant forall k :: 0 <= k < j ==> dots[k] == DotFor(k, index)
        invariant forall k :: 0 <= k < slides.Length ==> !slides[k]
        invariant timeRemaining == old(timeRemaining) && display == old(display)
      {
        dots[j] := DotFor(j, index);
      }
      if 0 <= index < slides.Length {
        slides[index] := true;
      }
      currentSlide := index;
    }

    /** `nextSlide`: advance unless the last of the seven slides is shown. */
    method NextSlide()
      modifies this, slides, dots
      ensures currentSlide == if old(currentSlide) < TotalSlides - 1 then old(currentSlide) + 1 else old(currentSlide)
      ensures 0 <= old(currentSlide) < TotalSlides ==> 0 <= currentSlide < TotalSlides
      ensures old(currentSlide) < TotalSlides - 1 ==>
                dots[..] == DotRow(dots.Length, currentSlide)
                && forall i :: 0 <= i < slides.Length ==> slides[i] == (i == currentSlide)
      ensures old(currentSlide) >= TotalSlides - 1 ==> unchanged(slides) && unchanged(dots)
      ensures timeRemaining == old(timeRemaining) && display == old(display)
    {
      if currentSlide < TotalSlides - 1 {
        ShowSlide(currentSlide + 1);
      }
    }

    /** `prevSlide`: go back unless the first slide is shown. */
    method PrevSlide()
      modifies this, slides, dots
      ensures currentSlide == if old(currentSlide) > 0 then old(currentSlide) - 1 else old(currentSlide)
      ensures 0 <= old(currentSlide) < TotalSlides ==> 0 <= currentSlide < TotalSlides
      ensures old(currentSlide) > 0 ==>
                dots[..] == DotRow(dots.Length, currentSlide)
                && forall i :: 0 <= i < slides.Length ==> slides[i] == (i == currentSlide)
      ensures old(currentSlide) <= 0 ==> unchanged(slides) && unchanged(dots)
      ensures timeRemaining == old(timeRemaining) && display == old(display)
    {
      if currentSlide > 0 {
        ShowSlide(currentSlide - 1);
      }
    }

    /**
     * `updateTimer`, run on load and every second: show the remaining time, count one second
     * down and save the new remaining time; once it has reached zero, show "Expired" only.
     */
    method UpdateTimer()
      modifies this, storage
      ensures display == DisplayText(old(timeRemaining))
      ensures timeRemaining == if old(timeRemaining) > 0 then old(timeRemaining) - 1 else old(timeRemaining)
      ensures storage.timer == if old(timeRemaining) > 0 then Some(timeRemaining) else old(storage.timer)
      ensures storage.timestamp == old(storage.timestamp)
      ensures currentSlide == old(currentSlide)
    {
      if timeRemaining <= 0 {
        display := "Expired";
        return;
      }
      display := ClockText(timeRemaining);
      timeRemaining := timeRemaining - 1;
      storage.timer := Some(timeRemaining);
    }

    /** `setInterval(updateTimer, 1000)` firing `count` times: the countdown stops at zero. */
    method RunInterval(count: nat)
      modifies this, storage
      ensures timeRemaining == if old(timeRemaining) > 0 then Max(0, old(timeRemaining) - count) else old(timeRemaining)
      ensures storage.timer == if old(timeRemaining) > 0 && count > 0 then Some(timeRemaining) else old(storage.timer)
      ensures storage.timestamp == old(storage.timestamp)
      ensures currentSlide == old(currentSlide)
    {
      for i := 0 to count
        invariant timeRemaining == if old(timeRemaining) > 0 then Max(0, old(timeRemaining) - i) else old(timeRemaining)
        invariant storage.timer == if old(timeRemaining) > 0 && i > 0 then Some(timeRemaining) else old(storage.timer)
        invariant storage.timestamp == old(storage.timestamp)
        invariant currentSlide == old(currentSlide)
      {
        UpdateTimer();
      }
    }

    /**
     * The `DOMContentLoaded` handler's countdown part: restore from a saved remaining time and
     * timestamp when both are present, otherwise save the current time and `now` as the start;
     * then the first `updateTimer`.
     */
    method OnLoaded(now: int)
      modifies this, storage
      ensures var r := LoadedRemaining(old(storage.timer), old(storage.timestamp), old(timeRemaining), now);
              && display == DisplayText(r)
              && timeRemaining == (if r > 0 then r - 1 else r)
              && storage.timer == (if r > 0 then Some(r - 1)
                                   else if old(storage.timer).Some? && old(storage.timestamp).Some? then old(storage.timer)
                                   else Some(r))
      ensures storage.timestamp == if old(storage.timer).Some? && old(storage.timestamp).Some? then old(storage.timestamp) else Some(now)
      ensures currentSlide == old(currentSlide)
    {
      if storage.timer.Some? && storage.timestamp.Some? {
        var elapsed := (now - storage.timestamp.value) / 1000;
        timeRemaining := Max(0, storage.timer.value - elapsed);
      } else {
        storage.timer := Some(timeRemaining);
        storage.timestamp := Some(now);
      }
      UpdateTimer();
    }
  }

  /**
   * Pressing "next" `presses` times on a fresh page stops at the last slide, with the progress
   * dots showing every earlier slide completed.
   */
  method WalkThrough(presses: nat) returns (shown: int, progress: seq<DotState>)
    ensures shown == if presses < TotalSlides then presses else TotalSlides - 1
    ensures progress == Repeat(Completed, shown) + [Active] + Repeat(Plain, TotalSlides - shown - 1)
  {
    var storage := new TimerStorage(None, None);
    var page := new OnboardingPage(TotalSlides, storage);
    var i := 0;
    while i < presses
      invariant 0 <= i <= presses
      invariant page.currentSlide == if i < TotalSlides then i else TotalSlides - 1
      invariant page.dots.Length == TotalSlides
      invariant page.dots[..] == DotRow(TotalSlides, page.currentSlide)
    {
      page.NextSlide();
      i := i + 1;
    }
    shown := page.currentSlide;
    progress := page.dots[..];
    DotRowShape(TotalSlides, shown);
  }

  /** The load after `ticks` ticks finds the saved time `ticks` lower and deducts `ticks` again. */
  lemma ReloadRemaining(firstLoad: int, ticks: nat, current: int)
    requires ticks < 1799
    ensures var r := LoadedRemaining(Some(InitialSeconds - 1 - ticks), Some(firstLoad), current, firstLoad + ticks * 1000);
            r == InitialSeconds - 1 - 2 * ticks && DisplayText(r) == ClockText(r)
  {
    RestoredAfterWholeSeconds(InitialSeconds - 1 - ticks, firstLoad, ticks);
  }

  /** A first visit at `firstLoad` that stays for `ticks` ticks, and the storage it leaves behind. */
  method FirstVisit(firstLoad: int, ticks: nat) returns (storage: TimerStorage, remaining: int)
    requires ticks < InitialSeconds
    ensures fresh(storage)
    ensures remaining == InitialSeconds - 1 - ticks
    ensures storage.timer == Some(remaining) && storage.timestamp == Some(firstLoad)
  {
    storage := new TimerStorage(None, None);
    var page := new OnboardingPage(TotalSlides, storage);
    page.OnLoaded(firstLoad);
    assert page.timeRemaining == InitialSeconds - 1 && storage.timestamp == Some(firstLoad);
    page.RunInterval(ticks);
    remaining := page.timeRemaining;
  }

  /**
   * The countdown across a reload. The remaining time is saved on every tick but the timestamp
   * only at the first load, and a reload subtracts all the seconds since that timestamp from the
   * saved remaining time, which already had them counted off: after `ticks` seconds on the page,
   * a reload takes `ticks` seconds more off the countdown than the page itself had counted.
   */
  method ReloadAfterTicks(firstLoad: int, ticks: nat) returns (beforeReload: int, afterReload: int, shown: string)
    requires ticks < 1799
    ensures beforeReload == InitialSeconds - 1 - ticks
    ensures afterReload == InitialSeconds - 2 - 2 * ticks
    ensures beforeReload - afterReload == ticks + 1
    ensures shown == ClockText(InitialSeconds - 1 - 2 * ticks)
  {
    var storage;
    storage, beforeReload := FirstVisit(firstLoad, ticks);
    var reloaded := new OnboardingPage(TotalSlides, storage);
    var reloadedAt := firstLoad + ticks * 1000;
    var restored := LoadedRemaining(storage.timer, storage.timestamp, reloaded.timeRemaining, reloadedAt);
    ReloadRemaining(firstLoad, ticks, reloaded.timeRemaining);
    assert restored == InitialSeconds - 1 - 2 * ticks && DisplayText(restored) == ClockText(restored);
    reloaded.OnLoaded(reloadedAt);
    assert reloaded.display == DisplayText(restored);
    afterReload := reloaded.timeRemaining;
    shown := reloaded.display;
  }
}

=== FILE: support.dfy ===
/** Small value types and the JavaScript number-to-text conversions the extension relies on. */
module Support {

  datatype Option<T> = None | Some(value: T)

  function Max(a: int, b: int): (r: int)
    ensures r >= a && r >= b && (r == a || r == b)
  {
    if a >= b then a else b
  }

  predicate IsDigit(c: char) {
    '0' <= c <= '9'
  }

  predicate AllDigits(s: string) {
    forall i :: 0 <= i < |s| ==> IsDigit(s[i])
  }

  function DigitChar(d: nat): (c: char)
    requires d < 10
    ensures IsDigit(c) && c as int - '0' as int == d
  {
    ('0' as int + d) as char
  }

  function DigitValue(c: char): (d: nat)
    requires IsDigit(c)
    ensures d < 10
  {
    c as int - '0' as int
  }

  /** The text JavaScript produces for a non-negative integer (`String(n)`, or `n` in a template). */
  function Decimal(n: nat): (s: string)
    ensures 1 <= |s| && AllDigits(s)
    ensures n < 10 <==> |s| == 1
    ensures 10 <= n < 100 ==> |s| == 2
    ensures |s| == 1 || s[0] != '0'
  {
    if n < 10 then [DigitChar(n)] else Decimal(n / 10) + [DigitChar(n % 10)]
  }

  /** The value of a string of decimal digits, most significant first. */
  function ParseDecimal(s: string): nat
    requires AllDigits(s)
  {
    if s == [] then 0 else ParseDecimal(s[..|s| - 1]) * 10 + DigitValue(s[|s| - 1])
  }

  /** Reading back what `Decimal` wrote gives the number again. */
  lemma {:induction false} DecimalRoundTrip(n: nat)
    ensures ParseDecimal(Decimal(n)) == n
  {
    if n >= 10 {
      var s := Decimal(n);
      assert s[..|s| - 1] == Decimal(n / 10);
      DecimalRoundTrip(n / 10);
    }
  }

  /** Two digits read as a number: tens first. */
  lemma ParseTwoDigits(s: string)
    requires |s| == 2 && AllDigits(s)
    ensures ParseDecimal(s) == DigitValue(s[0]) * 10 + DigitValue(s[1])
  {
    var head := s[..1];
    assert head[..0] == [] && head[0] == s[0];
    assert ParseDecimal(head) == DigitValue(s[0]);
  }

  /** `(n < 10 ? '0' : '') + n`: the zero-padded rendering used for clock fields. */
  function Padded(n: nat): (s: string)
    ensures AllDigits(s) && 2 <= |s|
    ensures n < 100 ==> |s| == 2
    ensures ParseDecimal(s) == n
    ensures 10 <= n ==> s[0] != '0'
  {
    DecimalRoundTrip(n);
    if n < 10 then "0" + Decimal(n) else Decimal(n)
  }
}
